=== FILE: README.md ===
# leek: the message-command pipeline, modelled in Dafny

leek is a Discord moderation bot. For every `MessageCreate` event in a guild
whose text starts with `leek`, it splits the rest of the text into words and
looks up the first word in a static command table (`ban`, `clear`). It reacts
❌ when the author lacks the command's permission, and parses the words with
clap. Then it either purges messages from the channel (`clear`) or announces
a ban with one of two Handlebars templates (`ban`). An unknown first word is
answered with ⚠.

The model treats one spawned task as a function
`Dispatch.Run(event, answers): Trace`. The `answers` are what the
collaborators return during the run:
- the author's channel permissions;
- the guild's members;
- the fetched channel messages;
- the cached role positions;
- the random template number.

The trace is the sequence of effects the task issues, in order:
- reactions;
- replies;
- the message fetch;
- the bulk delete;
- the clearing of reactions.

It also says whether the task ran to its end or panicked on an `unwrap`.
The purge fold and the report loop are modelled a second time as
imperative methods with loops (`Purge.AggregatePurge`, `Purge.RenderReport`),
each proved equal to the function the pipeline uses.

Modules, one per concern of the source:
- `Text`: Rust's `str::trim`, `split_ascii_whitespace`, decimal formatting
  and the `u64`/`i64` parsers.
- `Args`: a clap-style parser over an argument schema.
- `Registry`: the `COMMANDS` table.
- `Templates`: the ban templates and their rendering.
- `Hierarchy`: top roles and the hierarchy check.
- `Purge`: the fold over fetched messages and the report.
- `Dispatch`: the per-event task.
- `DispatchLemmas`: what the task guarantees.

Behaviour of the code that the model keeps as written:
- The trigger test is a plain prefix test, so `leekban 1` runs `ban 1`.
- A missing permission adds ❌, and the command still runs in full.
- `purge` is matched by the dispatcher but is not in the table, so it draws ⚠.
- The ban arm never calls a ban endpoint. A permitted ban sends one reply.
- `--soft` and `--after` are parsed but never read.
- Both templates use only `{{ username }}`, so the user id never appears in
  the reply.
- An id of 0 (`--before 0`, `ban 0`) panics in `Id::new`, because ids are
  non-zero.
- clap accepts an amount up to 1000, but the request builder refuses a fetch
  limit above 100 (`Dispatch.MaxFetchLimit`). So `clear -a 101` through
  `clear -a 1000` panic after the 🚼 reaction, before anything is fetched.
- The bulk delete is built only for 2 to 100 ids (`Dispatch.MinBulkDelete`,
  `Dispatch.MaxBulkDelete`). A fetch that returns no message or one message
  panics after the fetch, before anything is deleted, so `clear -a 1` can
  never finish.
- Reply content is limited to 2000 characters (`Dispatch.MaxContentLength`).
  A longer purge report, parser error or ban text panics before it is sent.
  In the purge arm the messages are already deleted and the reactions already
  cleared when that happens.

## Model

| member | source | states |
|---|---|---|
| Text.TrimStart | src/main.rs:154 | the result is a suffix of the input; every dropped character is Unicode whitespace; the first kept character is not |
| Text.TrimEnd | src/main.rs:154 | the result is a prefix of the input; every dropped character is Unicode whitespace; the last kept character is not |
| Text.SplitAsciiWhitespace | src/main.rs:153-156 | every word is non-empty and free of ASCII whitespace; the words concatenated are exactly the input's non-whitespace characters, in order |
| Text.SplitInterleaveRoundTrip | src/main.rs:153-156 | words separated by any non-empty runs of ASCII whitespace, with any padding of whitespace at either end, split back into exactly those words |
| Text.SplitDecomposes | src/main.rs:153-156 | every input is its words separated by non-empty runs of ASCII whitespace and padded by whitespace, so each word is a maximal run of non-whitespace characters |
| Text.SplitSkipsWhitespace | src/main.rs:155 | leading ASCII whitespace does not change the split |
| Text.SplitJoinRoundTrip | src/main.rs:153-156 | splitting words joined by single spaces gives the words back |
| Text.NatToString | src/main.rs:197 | the decimal rendering is non-empty and all digits, and starts with `0` only when it is exactly `0` (no leading zeros) |
| Text.DigitsValueOfNatToString | src/main.rs:197 | reading the decimal rendering of n gives n back |
| Text.ParseU64 | src/main.rs:55 | a parsed `u64` is below 2^64 |
| Text.ParseU64OfNatToString | src/main.rs:69 | the `u64` parser reads back any rendered number below 2^64 and rejects every larger one |
| Text.ParseI64 | src/main.rs:83 | a parsed `i64` lies in [-2^63, 2^63) |
| Text.ParseI64OfNatToString | src/main.rs:83 | the `i64` parser reads back any rendered number below 2^63 and rejects every larger one |
| Args.ParseValue | src/main.rs:83 | a value the parser accepts lies in the argument's declared range |
| Args.TryGetMatchesFrom | src/main.rs:169 | a successful parse holds only declared arguments with values in their ranges, and holds every required argument |
| Registry.Lookup | src/main.rs:46-88 | exactly `ban` and `clear` are commands; `ban` needs BAN_MEMBERS and has the `user`/`soft` schema; `clear` needs MANAGE_MESSAGES and has the `before`/`after`/`amount` schema |
| Registry.Permitted | src/main.rs:163-164 | a command is allowed exactly when it names no permission or every permission it names is granted |
| Registry.CommandsNeedPermissions | src/main.rs:163-164 | a command is permitted exactly when its one permission is granted |
| Templates.Render | src/main.rs:231 | rendering succeeds exactly for a registered template name |
| Templates.FillPlain | src/main.rs:231 | text without a `{` passes through rendering unchanged |
| Templates.BanTemplateRendering | src/main.rs:97-106 | template 1 renders to `**<username>** has been packed up` and template 2 to `**<username>** broke their legs while jumping over a highwall`, for any victim |
| Hierarchy.MaxCachedPosition | src/main.rs:211-215 | no result exactly when none of the roles is cached; otherwise the result is the position of a cached role and bounds every cached role's position |
| Hierarchy.TopRole | src/main.rs:211-222 | the top role bounds the position of every cached role of the member and is the position of one of them, or is 0 when none is cached |
| Hierarchy.OutranksIsStrict | src/main.rs:224 | `Hierarchy.Outranks` is strict: nobody outranks an equal, and of two members at most one outranks the other |
| Hierarchy.RolelessNeverOutranks | src/main.rs:224 | two members without cached roles can never ban each other |
| Hierarchy.SharedTopRoleBlocks | src/main.rs:224 | a moderator cannot ban a member who holds the moderator's own top role |
| Purge.Step | src/main.rs:184-192 | one message adds one to the counter, appends its id and adds its author to the keys; a new author is stored with 0 and a known one gets its old count plus 1; every other author's entry is unchanged |
| Purge.Fold | src/main.rs:183-193 | the keys of the statistics are the distinct authors of the messages |
| Purge.FoldCounts | src/main.rs:183-193 | the total equals the number of messages and of collected ids; the ids are the messages' ids in order; an author seen k times is stored with k - 1 |
| Purge.AuthorsAreWriters | src/main.rs:185-186 | a key is an author exactly when some message was written by it |
| Purge.DistinctAuthorsFold | src/main.rs:185-187 | messages from pairwise different authors give one entry per message, each stored with 0 |
| Purge.SingleAuthorFold | src/main.rs:185-191 | n messages from one author give the single entry n - 1 |
| Purge.AggregatePurge | src/main.rs:172-193 | the loop ends with the fold's map, counter and id list; the counter is the number of messages, and each author is stored with its count minus one |
| Purge.FirstSeen | src/main.rs:196 | the visiting order lists every author exactly once |
| Purge.RenderReport | src/main.rs:195-198 | the loop builds the concatenation of one line per visited entry, in visiting order |
| Purge.OneLinePerEntry | src/main.rs:196-198 | for any order that visits each key once, there is one line per map entry and every entry's line is present |
| Purge.Line | src/main.rs:197 | an author's line opens with the author's name in bold and an opening parenthesis, ends with `**` and a newline, and the number just before that end reads back as the stored count |
| Purge.Header | src/main.rs:201 | the first line is `:ok_hand: Cleared **`, a number, and `** messages.` with a newline, and that number reads back as the count of fetched messages |
| Purge.Report | src/main.rs:195-201 | the reply begins with the header that announces the number of fetched messages |
| Purge.ReportContents | src/main.rs:201 | the reply's header announces the number of fetched messages, and it has one line per distinct author |
| Purge.LineOfAuthor | src/main.rs:196-201 | each author's line carries the number of its messages minus one |
| Dispatch.ClearArgumentsInRange | src/main.rs:175-183 | a parsed amount lies in [1, 1000]; a parsed `before` or `after` id fits in a `u64` |
| Dispatch.BanArgumentsPresent | src/main.rs:203-206 | a parsed user id is a number that fits in a `u64` |
| Dispatch.Tokens | src/main.rs:151-156 | the words after `leek` are non-empty and free of ASCII whitespace, and together they are exactly the non-whitespace characters of the trimmed rest, in order |
| Dispatch.PermissionGate | src/main.rs:163-167 | the gate is one ❌ reaction when the command's permission is missing and nothing when it is granted |
| Dispatch.SendReply | src/main.rs:201 | for every reply (the report here, the ban text at lines 231-234 and the parser error at line 241), a text of at most 2000 characters is sent as one reply after the earlier effects and the run completes; a longer one panics with nothing sent; a reply that is sent always passes the content check |
| Dispatch.Run | src/main.rs:146-253 | every request the task issues passes twilight's builder checks (reply length, fetch limit, bulk-delete size); `DispatchLemmas` states the trace of each path, the failed permission lookup and the failed fetch included |
| Dispatch.Execute | src/main.rs:169-244 | every request passes the builder checks; a parse error produces at most one effect, a reply |
| Dispatch.Clear | src/main.rs:171-201 | every request passes the builder checks, and the first effect is always 🚼; `DispatchLemmas.PurgeEffects` and the panic lemmas give the rest |
| Dispatch.Purged | src/main.rs:195-201 | after a fetch the builders accept, every further request is accepted and the trace starts with 🚼 and the fetch |
| Dispatch.Ban | src/main.rs:202-235 | every request passes the builder checks, and the arm produces at most one effect, a ❌ reaction or a reply; `DispatchLemmas.BanOutcomes` says which |
| DispatchLemmas.SilentUnlessDispatched | src/main.rs:146-158 | an event other than a guild message starting with `leek` and leaving a word produces no effect and no panic |
| DispatchLemmas.TriggerNeedsNoBoundary | src/main.rs:151-156 | `leekban 1` starts with the trigger and yields the words `ban`, `1` |
| DispatchLemmas.UnknownCommandWarns | src/main.rs:245-247 | a first word that is no command produces exactly one ⚠ reaction |
| DispatchLemmas.PurgeWarns | src/main.rs:171 | `purge` produces exactly one ⚠ reaction, whatever follows it |
| DispatchLemmas.DenialDoesNotShortCircuit | src/main.rs:163-169 | a denied run is the permitted run with one ❌ reaction in front |
| DispatchLemmas.ParseFailureOnlyReplies | src/main.rs:238-243 | a parse error produces one reply with the error's text, after the gate's ❌ if any, and nothing else; an error text over 2000 characters panics after the gate, with no reply |
| DispatchLemmas.ClearAmountBounds | src/main.rs:78-83 | `clear -a k` parses exactly when 1 <= k <= 1000, and otherwise fails with an invalid-value error for `amount` |
| DispatchLemmas.ClearAmountOutOfRangeReplies | src/main.rs:238-243 | `clear -a k` with k outside [1, 1000] is answered only by the parser's error text, when that text fits in a reply |
| DispatchLemmas.PurgeEffects | src/main.rs:171-201 | a purge that fetches 2 to 100 messages and whose report fits in a reply issues 🚼, the fetch before the given id or the message itself with the given amount or 10, the deletion of the fetched ids, the clearing of reactions, and the report announcing the number of fetched messages |
| DispatchLemmas.PurgeDeleteRefusedPanics | src/main.rs:199 | a fetch that returns fewer than 2 or more than 100 messages panics right after the fetch: nothing is deleted, no reaction is cleared and no reply is sent |
| DispatchLemmas.PurgeReplyTooLongPanics | src/main.rs:201 | a report over 2000 characters panics after the delete and the clearing of reactions, with no reply |
| DispatchLemmas.PurgedCases | src/main.rs:195-201 | after the fetch, the purge either panics at the bulk delete, or deletes, clears reactions and then either replies with the report or panics on its length |
| DispatchLemmas.FetchFailurePanics | src/main.rs:180-183 | a failed message fetch panics right after the fetch request: the gate, 🚼 and the fetch, and nothing more |
| DispatchLemmas.PermissionLookupFailurePanics | src/main.rs:160-161 | when the permission lookup of a found command fails, the run panics with no effect at all |
| DispatchLemmas.ClearPanicsBeforeFetch | src/main.rs:180-183 | a `before` of 0 or an amount above the request limit panics right after 🚼, with nothing fetched |
| DispatchLemmas.BanOutcomes | src/main.rs:206-234 | with the victim found: no moderator data gives ❌; a victim ranking at or above the moderator gives ❌; otherwise the one reply is the chosen template with the victim's username, or a panic with no reply when that text is over 2000 characters |
| DispatchLemmas.BanCases | src/main.rs:207-234 | the ban arm alone: ❌ without moderator data or when the victim is not outranked, else the rendered template sent as a reply |
| DispatchLemmas.UsernameReplyFits | src/main.rs:231-234 | a username of at most 32 characters, the longest Discord allows, always gives a ban text that fits in a reply |
| DispatchLemmas.BanTargetAlwaysParsed | src/main.rs:203-205 | a successful `ban` parse always holds the user id, so the early return is never taken |
| DispatchLemmas.BanLookupFailurePanics | src/main.rs:206 | a user id of 0, or one the guild does not have, panics with no effect after the gate |
| DispatchLemmas.AfterIsIgnored | src/main.rs:171-201 | the purge arm behaves the same with or without an `after` value |
| DispatchLemmas.SoftIsIgnored | src/main.rs:202-235 | the ban arm behaves the same with or without the `soft` flag |

## Left out

- The gateway loop, shards, `tokio::spawn` and `cache.update` (src/main.rs:122-145) are not modelled. Each event is one call of `Dispatch.Run`, and the cache's contents are inputs.
- Reading `Config.yml` and building the client (src/main.rs:108-120) is not modelled: it is start-up I/O.
- The permission calculator is not modelled. Its answer is an input, and `None` stands for a failure of the unwrapped call.
- Once a request passes its builder check, it is assumed to succeed: the model does not capture HTTP or rate-limit failures of the reactions, replies, the delete or the clearing of reactions. It does capture the builder checks that are unwrapped (fetch limit, bulk-delete size, content length), the panic of `Id::new(0)`, and the failure of the reads whose answers are inputs: the permission lookup, the member fetch and the message fetch.
- The member fetch is a read. It appears in the trace only through its failure.
- Effects carry no channel or message ids: every effect targets the invoking channel, and reactions target the invoking message.
- `println!("Bad")` (src/main.rs:225) writes to standard output and is not modelled.
- The random choice (src/main.rs:230) becomes the input `Answers.banTemplate`, restricted to 1 or 2.
- The report's entry order: Rust's `HashMap` iteration order is unspecified. The model visits authors in order of first appearance (`Purge.FirstSeen`), and `Purge.OneLinePerEntry` holds for every order that visits each key once.
- Args.ErrorText: the wording of clap's messages, help text and usage lines is not modelled. Each error kind has a fixed, non-empty text that names the offending argument or value. Its length is the model's own, so whether a real clap message fits in 2000 characters is not decided by the model; the lemmas about parse errors state both cases.
- Args.TryGetMatchesFrom: clap is modelled as a simplified parser, without suggestions, negative-number handling or other argument settings. Its contract states only that a successful parse fits the schema and holds the required arguments. `DispatchLemmas.ClearAmountBounds` pins down its behaviour on `clear -a k`.
- The `target` alias on the positional `user` argument has no effect, as in clap: positional arguments take no `--` names, so `--target` is an unknown argument.
- Handlebars rendering is modelled as plain substitution of `{{ username }}` and `{{ user_id }}`, with no HTML escaping of the username.
- Templates.Render: only the two registered templates are modelled. Other Handlebars syntax is not.
- A user id of 0 and a member missing from the guild both stand for the panicking `Id::new` and member fetch. The model does not tell the two panics apart.

=== FILE: args.dfy ===
/**
 * The slice of clap's `Command::try_get_matches_from` that the two command
 * schemas exercise: a binary name, long options (`--name value`,
 * `--name=value`, long aliases), clusters of short options (`-s`, `-a5`,
 * `-a=5`, `-a 5`), the `--` escape, positional arguments, the built-in
 * `-h`/`--help`, clap 4's refusal of an argument given twice, required
 * arguments and the ranged integer value parsers.
 */
module Args {
  import opened Wrappers
  import opened Text

  /** `value_parser!(u64).range(lo..)` and `value_parser!(u16).range(lo..hi)`;
    * the latter reads an `i64` and then checks the half-open range. */
  datatype ValueParser =
    | UnsignedFrom(min: nat)
    | SignedRange(low: int, high: int)

  /** `ArgAction::Set` (takes one value) or `ArgAction::SetTrue` (a flag). */
  datatype Action = Set(parser: ValueParser) | SetTrue

  /** One `Arg`: an argument with neither short nor long name is positional,
    * and clap registers the aliases of named arguments only. */
  datatype ArgSpec = ArgSpec(
    id: string,
    short: Option<char>,
    long: Option<string>,
    aliases: seq<string>,
    action: Action,
    required: bool)
  {
    predicate IsPositional() {
      short.None? && long.None?
    }
  }

  type Schema = seq<ArgSpec>

  datatype Value = Number(n: int) | Switch(on: bool)

  /** What `ArgMatches` holds: one value per argument id. */
  type Matches = map<string, Value>

  datatype ParseError =
    | UnknownArgument(token: string)
    | UnexpectedValue(arg: string, value: string)
    | MissingValue(arg: string)
    | InvalidValue(arg: string, value: string)
    | UnexpectedPositional(token: string)
    | ArgumentConflict(arg: string)
    | MissingRequired(arg: string)
    | HelpRequested

  /** The text the dispatcher replies with; it stands in for clap's `Error`
    * rendering, whose exact wording is not modelled. */
  function ErrorText(e: ParseError): (t: string)
    ensures t != []
  {
    match e
    case UnknownArgument(tok) => "error: unexpected argument '" + tok + "' found"
    case UnexpectedValue(a, v) => "error: unexpected value '" + v + "' for '" + a + "' found"
    case MissingValue(a) => "error: a value is required for '" + a + "' but none was supplied"
    case InvalidValue(a, v) => "error: invalid value '" + v + "' for '" + a + "'"
    case UnexpectedPositional(tok) => "error: unexpected argument '" + tok + "' found"
    case ArgumentConflict(a) => "error: the argument '" + a + "' cannot be used multiple times"
    case MissingRequired(a) => "error: the following required arguments were not provided: " + a
    case HelpRequested => "Usage: [OPTIONS]"
  }

  /** The values a value parser lets through. */
  predicate InRange(p: ValueParser, v: int) {
    match p
    case UnsignedFrom(lo) => lo <= v < U64_LIMIT
    case SignedRange(lo, hi) => lo <= v < hi
  }

  /** A value parser applied to one raw token. */
  function ParseValue(p: ValueParser, raw: string): (r: Option<int>)
    ensures r.Some? ==> InRange(p, r.value)
  {
    match p
    case UnsignedFrom(lo) =>
      (match ParseU64(raw)
       case Some(v) => if lo <= v then Some(v) else None
       case None => None)
    case SignedRange(lo, hi) =>
      (match ParseI64(raw)
       case Some(v) => if lo <= v < hi then Some(v) else None
       case None => None)
  }

  /** Every stored value belongs to an argument of the schema and is one its
    * action can produce. */
  ghost predicate Fits(schema: Schema, m: Matches) {
    forall id :: id in m ==>
      exists i :: 0 <= i < |schema| && schema[i].id == id && ValueFits(schema[i].action, m[id])
  }

  predicate ValueFits(action: Action, v: Value) {
    match action
    case Set(p) => v.Number? && InRange(p, v.n)
    case SetTrue => v.Switch?
  }

  /** A token clap reads as a new option rather than as a value. */
  predicate IsFlagLike(t: string) {
    |t| >= 2 && t[0] == '-'
  }

  function FindLong(schema: Schema, name: string): (r: Option<nat>)
    ensures r.Some? ==> r.value < |schema| && !schema[r.value].IsPositional()
    ensures r.Some? ==> schema[r.value].long == Some(name) || name in schema[r.value].aliases
    ensures r.None? ==> forall i :: 0 <= i < |schema| ==>
      schema[i].IsPositional() || (schema[i].long != Some(name) && name !in schema[i].aliases)
  {
    if schema == [] then None
    else if !schema[0].IsPositional() && (schema[0].long == Some(name) || name in schema[0].aliases) then Some(0)
    else match FindLong(schema[1..], name)
      case Some(i) => Some(i + 1)
      case None => None
  }

  function FindShort(schema: Schema, c: char): (r: Option<nat>)
    ensures r.Some? ==> r.value < |schema| && schema[r.value].short == Some(c)
    ensures r.None? ==> forall i :: 0 <= i < |schema| ==> schema[i].short != Some(c)
  {
    if schema == [] then None
    else if schema[0].short == Some(c) then Some(0)
    else match FindShort(schema[1..], c)
      case Some(i) => Some(i + 1)
      case None => None
  }

  /** The first positional argument that has not received its value yet. */
  function NextPositional(schema: Schema, m: Matches): (r: Option<nat>)
    ensures r.Some? ==> r.value < |schema| && schema[r.value].IsPositional() && schema[r.value].action.Set?
    ensures r.Some? ==> schema[r.value].id !in m
    ensures r.None? ==> forall i :: 0 <= i < |schema| ==>
      !(schema[i].IsPositional() && schema[i].action.Set? && schema[i].id !in m)
  {
    if schema == [] then None
    else if schema[0].IsPositional() && schema[0].action.Set? && schema[0].id !in m then Some(0)
    else match NextPositional(schema[1..], m)
      case Some(i) => Some(i + 1)
      case None => None
  }

  /** Records a value for a value-taking argument: a second occurrence is a
    * conflict, and the value parser decides the rest. */
  function StoreValue(schema: Schema, i: nat, raw: string, m: Matches): (r: Result<Matches, ParseError>)
    requires i < |schema| && schema[i].action.Set?
    requires Fits(schema, m)
    ensures r.Ok? ==> Fits(schema, r.value) && r.value.Keys == m.Keys + {schema[i].id}
  {
    var a := schema[i];
    if a.id in m then Err(ArgumentConflict(a.id))
    else match ParseValue(a.action.parser, raw)
      case None => Err(InvalidValue(a.id, raw))
      case Some(v) => Ok(m[a.id := Number(v)])
  }

  /** Records a flag; a second occurrence is a conflict. */
  function StoreFlag(schema: Schema, i: nat, m: Matches): (r: Result<Matches, ParseError>)
    requires i < |schema| && schema[i].action.SetTrue?
    requires Fits(schema, m)
    ensures r.Ok? ==> Fits(schema, r.value) && r.value.Keys == m.Keys + {schema[i].id}
  {
    var a := schema[i];
    if a.id in m then Err(ArgumentConflict(a.id)) else Ok(m[a.id := Switch(true)])
  }

  /** Splits the text after `--` at its first `=`. */
  function SplitLong(body: string): (r: (string, Option<string>))
    ensures r.1.None? ==> r.0 == body
  {
    if body == [] then ([], None)
    else if body[0] == '=' then ([], Some(body[1..]))
    else var (n, v) := SplitLong(body[1..]); ([body[0]] + n, v)
  }

  /** One cluster of short options (the characters after a single `-`);
    * the boolean says whether the following token was taken as a value. */
  function ParseCluster(schema: Schema, chars: string, next: Option<string>, m: Matches)
    : (r: Result<(Matches, bool), ParseError>)
    requires Fits(schema, m)
    ensures r.Ok? ==> Fits(schema, r.value.0) && m.Keys <= r.value.0.Keys
    ensures r.Ok? && r.value.1 ==> next.Some?
    decreases |chars|
  {
    if chars == [] then Ok((m, false))
    else if chars[0] == 'h' then Err(HelpRequested)
    else match FindShort(schema, chars[0])
      case None => Err(UnknownArgument(['-', chars[0]]))
      case Some(i) =>
        if schema[i].action.SetTrue? then
          match StoreFlag(schema, i, m)
          case Err(e) => Err(e)
          case Ok(m') => ParseCluster(schema, chars[1..], next, m')
        else
          var attached := chars[1..];
          if attached != [] then
            var raw := if attached[0] == '=' then attached[1..] else attached;
            match StoreValue(schema, i, raw, m)
            case Err(e) => Err(e)
            case Ok(m') => Ok((m', false))
          else if next.Some? && !IsFlagLike(next.value) then
            match StoreValue(schema, i, next.value, m)
            case Err(e) => Err(e)
            case Ok(m') => Ok((m', true))
          else Err(MissingValue(schema[i].id))
  }

  /** The first required argument without a value, if any. */
  function MissingRequiredArg(schema: Schema, m: Matches): (r: Option<nat>)
    ensures r.Some? ==> r.value < |schema| && schema[r.value].required && schema[r.value].id !in m
    ensures r.None? ==> forall i :: 0 <= i < |schema| && schema[i].required ==> schema[i].id in m
  {
    if schema == [] then None
    else if schema[0].required && schema[0].id !in m then Some(0)
    else match MissingRequiredArg(schema[1..], m)
      case Some(i) => Some(i + 1)
      case None =>
        assert forall i :: 1 <= i < |schema| ==> schema[i] == schema[1..][i - 1];
        None
  }

  /** clap gives every flag that was not given the value `false`; `k` is
    * the position in the schema reached so far. */
  function FlagDefaults(schema: Schema, k: nat, m: Matches): (r: Matches)
    requires k <= |schema| && Fits(schema, m)
    ensures Fits(schema, r) && m.Keys <= r.Keys
    ensures forall id :: id in m ==> r[id] == m[id]
    decreases |schema| - k
  {
    if k == |schema| then m
    else
      var a := schema[k];
      var m' := if a.action.SetTrue? && a.id !in m then m[a.id := Switch(false)] else m;
      assert Fits(schema, m') by {
        assert a.action.SetTrue? && a.id !in m ==> ValueFits(schema[k].action, m'[a.id]);
      }
      FlagDefaults(schema, k + 1, m')
  }

  /** Once the tokens are used up: required arguments are checked, then the
    * flag defaults are filled in. */
  function Finish(schema: Schema, m: Matches): (r: Result<Matches, ParseError>)
    requires Fits(schema, m)
    ensures r.Ok? ==> Fits(schema, r.value) && m.Keys <= r.value.Keys
    ensures r.Ok? ==> forall i :: 0 <= i < |schema| && schema[i].required ==> schema[i].id in r.value
  {
    match MissingRequiredArg(schema, m)
    case Some(i) => Err(MissingRequired(schema[i].id))
    case None => Ok(FlagDefaults(schema, 0, m))
  }

  /** The tokens after the binary name, left to right; the first error wins. */
  function ParseTokens(schema: Schema, tokens: seq<string>, m: Matches, escaped: bool)
    : (r: Result<Matches, ParseError>)
    requires Fits(schema, m)
    ensures r.Ok? ==> Fits(schema, r.value) && m.Keys <= r.value.Keys
    ensures r.Ok? ==> forall i :: 0 <= i < |schema| && schema[i].required ==> schema[i].id in r.value
    decreases |tokens|
  {
    if tokens == [] then Finish(schema, m)
    else
      var t := tokens[0];
      var rest := tokens[1..];
      if !escaped && t == "--" then ParseTokens(schema, rest, m, true)
      else if !escaped && |t| > 2 && t[..2] == "--" then
        var (name, inline) := SplitLong(t[2..]);
        if name == "help" then Err(HelpRequested)
        else match FindLong(schema, name)
          case None => Err(UnknownArgument(t))
          case Some(i) =>
            if schema[i].action.SetTrue? then
              if inline.Some? then Err(UnexpectedValue(schema[i].id, inline.value))
              else match StoreFlag(schema, i, m)
                case Err(e) => Err(e)
                case Ok(m') => ParseTokens(schema, rest, m', false)
            else if inline.Some? then
              match StoreValue(schema, i, inline.value, m)
              case Err(e) => Err(e)
              case Ok(m') => ParseTokens(schema, rest, m', false)
            else if rest != [] && !IsFlagLike(rest[0]) then
              match StoreValue(schema, i, rest[0], m)
              case Err(e) => Err(e)
              case Ok(m') => ParseTokens(schema, rest[1..], m', false)
            else Err(MissingValue(schema[i].id))
      else if !escaped && IsFlagLike(t) then
        var next := if rest == [] then None else Some(rest[0]);
        match ParseCluster(schema, t[1..], next, m)
        case Err(e) => Err(e)
        case Ok((m', tookNext)) => ParseTokens(schema, if tookNext then rest[1..] else rest, m', false)
      else
        match NextPositional(schema, m)
        case None => Err(UnexpectedPositional(t))
        case Some(i) =>
          match StoreValue(schema, i, t, m)
          case Err(e) => Err(e)
          case Ok(m') => ParseTokens(schema, rest, m', escaped)
  }

  /** `Command::try_get_matches_from(argv)`: the first element is the binary
    * name and is skipped. */
  function TryGetMatchesFrom(schema: Schema, argv: seq<string>): (r: Result<Matches, ParseError>)
    ensures r.Ok? ==> Fits(schema, r.value)
    ensures r.Ok? ==> forall i :: 0 <= i < |schema| && schema[i].required ==> schema[i].id in r.value
  {
    ParseTokens(schema, if argv == [] then [] else argv[1..], map[], false)
  }
}

=== FILE: dispatch.dfy ===
/**
 * The per-event task: from one gateway event and the answers of the
 * collaborators it consults, the sequence of effects the task issues
 * (reactions, replies, the message fetch, the bulk delete and the clearing
 * of reactions) and whether it ran to its end or panicked on an `unwrap`.
 */
module Dispatch {
  import opened Wrappers
  import opened Text
  import opened Args
  import opened Registry
  import opened Templates
  import opened Hierarchy
  import opened Purge

  const Trigger: string := "leek"

  /** The parts of a created message the task reads; `memberRoles` is the
    * role list of `message.member`, absent when the gateway sent none. */
  datatype Message = Message(
    id: MessageId,
    guildId: Option<nat>,
    content: string,
    memberRoles: Option<seq<RoleId>>)

  datatype Event = MessageCreate(message: Message) | OtherEvent

  /** A guild member as the HTTP API returns it. */
  datatype GuildMember = GuildMember(username: string, roles: seq<RoleId>)

  /** `rand::thread_rng().gen_range(1..3)`. */
  type TemplateIndex = n: int | 1 <= n <= 2 witness 1

  /** What the collaborators answer during one run:
    * - `permissions`: the author's permissions in the channel, `None` when
    *   the permission calculator fails (its result is unwrapped);
    * - `members`: the guild's members by user id; fetching one that is not
    *   there fails;
    * - `fetched`: the channel messages returned by the fetch, `None` when
    *   the request fails;
    * - `roleCache`: the position of each cached role;
    * - `banTemplate`: the random template number. */
  datatype Answers = Answers(
    permissions: Option<set<Permission>>,
    members: map<nat, GuildMember>,
    fetched: Option<seq<FetchedMessage>>,
    roleCache: map<RoleId, int>,
    banTemplate: TemplateIndex)

  /** The three reactions: ❌, ⚠ and 🚼. */
  datatype Emoji = CrossMark | Warning | BabySymbol

  /** Every effect concerns the channel of the invoking message; reactions
    * and their clearing concern the invoking message itself. */
  datatype Effect =
    | React(emoji: Emoji)
    | Reply(content: string)
    | FetchMessages(before: MessageId, limit: nat)
    | DeleteMessages(ids: seq<MessageId>)
    | ClearReactions

  datatype Outcome = Completed | Panicked

  datatype Trace = Trace(effects: seq<Effect>, outcome: Outcome)

  function Prefixed(pre: seq<Effect>, t: Trace): Trace {
    Trace(pre + t.effects, t.outcome)
  }

  /** The words after the trigger: strip four bytes, trim, split. */
  function Tokens(content: string): (r: seq<string>)
    requires Trigger <= content
    ensures forall i :: 0 <= i < |r| ==> r[i] != [] && NoAsciiWhitespace(r[i])
    ensures Concat(r) == Squeeze(Trim(content[|Trigger|..]))
  {
    SplitAsciiWhitespace(Trim(content[|Trigger|..]))
  }

  /** The conditions under which a command name is looked up at all. */
  predicate Dispatches(ev: Event) {
    && ev.MessageCreate?
    && ev.message.guildId.Some?
    && Trigger <= ev.message.content
    && |Tokens(ev.message.content)| >= 1
  }

  function CommandLine(ev: Event): seq<string>
    requires Dispatches(ev)
  {
    Tokens(ev.message.content)
  }

  /** The ❌ reaction for a command whose permission the author lacks. */
  function PermissionGate(required: Option<set<Permission>>, granted: set<Permission>): (r: seq<Effect>)
    ensures |r| <= 1 && (r == [] <==> Permitted(required, granted))
    ensures forall i :: 0 <= i < |r| ==> r[i] == React(CrossMark)
  {
    if Permitted(required, granted) then [] else [React(CrossMark)]
  }

  /** The largest `limit` twilight accepts on a channel-messages request;
    * a larger one makes the builder's `limit` return an error. */
  const MaxFetchLimit: nat := 100

  /** The number of ids twilight accepts in one bulk delete. */
  const MinBulkDelete: nat := 2
  const MaxBulkDelete: nat := 100

  /** The longest message content, in characters, twilight accepts. */
  const MaxContentLength: nat := 2000

  /** An effect whose request passes twilight's builder checks. */
  predicate Accepted(e: Effect) {
    match e
    case React(_) => true
    case Reply(content) => |content| <= MaxContentLength
    case FetchMessages(_, limit) => 1 <= limit <= MaxFetchLimit
    case DeleteMessages(ids) => MinBulkDelete <= |ids| <= MaxBulkDelete
    case ClearReactions => true
  }

  predicate AllAccepted(t: Trace) {
    forall i :: 0 <= i < |t.effects| ==> Accepted(t.effects[i])
  }

  /** `create_message(..).content(text).unwrap()` and the send, after the
    * effects `pre`: too long a text panics before anything is sent. */
  function SendReply(pre: seq<Effect>, text: string): (r: Trace)
    ensures |text| <= MaxContentLength ==> r == Trace(pre + [Reply(text)], Completed)
    ensures |text| > MaxContentLength ==> r == Trace(pre, Panicked)
    ensures AllAccepted(Trace(pre, Completed)) ==> AllAccepted(r)
  {
    if |text| <= MaxContentLength then Trace(pre + [Reply(text)], Completed) else Trace(pre, Panicked)
  }

  /** The whole task for one event. Every request it issues is one the
    * request builders accept: the unwrapped checks panic instead. */
  function Run(ev: Event, ans: Answers): (r: Trace)
    ensures AllAccepted(r)
  {
    match ev
    case OtherEvent => Trace([], Completed)
    case MessageCreate(message) =>
      if message.guildId.None? then Trace([], Completed)
      else if !(Trigger <= message.content) then Trace([], Completed)
      else
        var tokens := Tokens(message.content);
        if |tokens| < 1 then Trace([], Completed)
        else match Lookup(tokens[0])
          case None => Trace([React(Warning)], Completed)
          case Some(cmd) =>
            match ans.permissions
            case None => Trace([], Panicked)
            case Some(granted) =>
              Prefixed(PermissionGate(cmd.permissions, granted), Execute(message, tokens, cmd, ans))
  }

  /** Parsing, then the arm chosen by the first word; the denial above does
    * not stop this. */
  function Execute(message: Message, tokens: seq<string>, cmd: LeekCommand, ans: Answers): (r: Trace)
    requires tokens != [] && Lookup(tokens[0]) == Some(cmd)
    ensures AllAccepted(r)
    ensures TryGetMatchesFrom(cmd.args, tokens).Err? ==>
      |r.effects| <= 1 && forall i :: 0 <= i < |r.effects| ==> r.effects[i].Reply?
  {
    match TryGetMatchesFrom(cmd.args, tokens)
    case Err(e) => SendReply([], ErrorText(e))
    case Ok(matched) =>
      var first := tokens[0];
      if first == "clear" || first == "purge" then Clear(message, matched, ans)
      else if first == "ban" then Ban(message, matched, ans)
      else Trace([], Completed)
  }

  /** `matched.get_one(id)` for a numeric argument. */
  function NumberArg(matched: Matches, id: string): Option<int> {
    if id in matched && matched[id].Number? then Some(matched[id].n) else None
  }

  /** What a successful parse against the `clear` schema guarantees. */
  lemma ClearArgumentsInRange(matched: Matches)
    requires Fits(ClearSchema(), matched)
    ensures NumberArg(matched, "amount").Some? ==> 1 <= NumberArg(matched, "amount").value <= 1000
    ensures NumberArg(matched, "before").Some? ==> 0 <= NumberArg(matched, "before").value < U64_LIMIT
    ensures NumberArg(matched, "after").Some? ==> 0 <= NumberArg(matched, "after").value < U64_LIMIT
  {
    var schema := ClearSchema();
    if "amount" in matched {
      var i :| 0 <= i < |schema| && schema[i].id == "amount" && ValueFits(schema[i].action, matched["amount"]);
      assert i == 2;
    }
    if "before" in matched {
      var i :| 0 <= i < |schema| && schema[i].id == "before" && ValueFits(schema[i].action, matched["before"]);
      assert i == 0;
    }
    if "after" in matched {
      var i :| 0 <= i < |schema| && schema[i].id == "after" && ValueFits(schema[i].action, matched["after"]);
      assert i == 1;
    }
  }

  /** What a successful parse against the `ban` schema guarantees: the
    * required user id is there and fits in a `u64`. */
  lemma BanArgumentsPresent(matched: Matches)
    requires Fits(BanSchema(), matched) && "user" in matched
    ensures NumberArg(matched, "user").Some?
    ensures 0 <= NumberArg(matched, "user").value < U64_LIMIT
  {
    var schema := BanSchema();
    var i :| 0 <= i < |schema| && schema[i].id == "user" && ValueFits(schema[i].action, matched["user"]);
    assert i == 0;
  }

  /** The purge arm. An explicit `before` of 0 panics in `Id::new`, since
    * ids are non-zero; an amount above the request limit panics in the
    * unwrapped `limit`; a failed fetch panics after the request; a bulk
    * delete of fewer than 2 or more than 100 ids, and too long a report,
    * panic in their unwrapped builders. */
  function Clear(message: Message, matched: Matches, ans: Answers): (r: Trace)
    requires Fits(ClearSchema(), matched)
    ensures AllAccepted(r)
    ensures r.effects != [] && r.effects[0] == React(BabySymbol)
  {
    ClearArgumentsInRange(matched);
    var amount: nat := NumberArg(matched, "amount").GetOr(10);
    var before := NumberArg(matched, "before");
    if before == Some(0) then Trace([React(BabySymbol)], Panicked)
    else if amount > MaxFetchLimit then Trace([React(BabySymbol)], Panicked)
    else
      var anchor: nat := if before.Some? then before.value else message.id;
      var fetch := FetchMessages(anchor, amount);
      match ans.fetched
      case None => Trace([React(BabySymbol), fetch], Panicked)
      case Some(msgs) => Purged(fetch, msgs)
  }

  /** The purge arm after a successful fetch: the bulk delete, the clearing
    * of reactions and the report. */
  function Purged(fetch: Effect, msgs: seq<FetchedMessage>): (r: Trace)
    requires Accepted(fetch)
    ensures AllAccepted(r)
    ensures |r.effects| >= 2 && r.effects[..2] == [React(BabySymbol), fetch]
  {
    var ids := Fold(msgs).ids;
    var pre := [React(BabySymbol), fetch];
    if !(MinBulkDelete <= |ids| <= MaxBulkDelete) then Trace(pre, Panicked)
    else
      var done := pre + [DeleteMessages(ids), ClearReactions];
      assert AllAccepted(Trace(done, Completed));
      SendReply(done, Report(msgs))
  }

  /** The ban arm. The victim is fetched before the moderator is checked; no
    * ban request is ever made, the run ends with the reply. */
  function Ban(message: Message, matched: Matches, ans: Answers): (r: Trace)
    requires Fits(BanSchema(), matched)
    ensures AllAccepted(r)
    ensures |r.effects| <= 1
    ensures forall i :: 0 <= i < |r.effects| ==> r.effects[i] == React(CrossMark) || r.effects[i].Reply?
  {
    if "user" !in matched then Trace([], Completed)
    else
      BanArgumentsPresent(matched);
      var target: nat := NumberArg(matched, "user").value;
      if target == 0 then Trace([], Panicked)
      else if target !in ans.members then Trace([], Panicked)
      else
        var victim := ans.members[target];
        match message.memberRoles
        case None => Trace([React(CrossMark)], Completed)
        case Some(moderatorRoles) =>
          var moderatorTop := TopRole(moderatorRoles, ans.roleCache);
          var victimTop := TopRole(victim.roles, ans.roleCache);
          if !Outranks(moderatorTop, victimTop) then Trace([React(CrossMark)], Completed)
          else
            var name := "ban_" + NatToString(ans.banTemplate);
            match Render(BanTemplates(), name, BanMessageData(target, victim.username))
            case None => Trace([], Panicked)
            case Some(text) => SendReply([], text)
  }
}

=== FILE: dispatch_lemmas.dfy ===
/**
 * What the per-event task guarantees, stated over `Dispatch.Run`.
 */
module DispatchLemmas {
  import opened Wrappers
  import opened Text
  import opened Args
  import opened Registry
  import opened Templates
  import opened Hierarchy
  import opened Purge
  import opened Dispatch

  /** Nothing happens unless the event is a created guild message that starts
    * with the trigger and leaves at least one word. */
  lemma SilentUnlessDispatched(ev: Event, ans: Answers)
    requires !Dispatches(ev)
    ensures Run(ev, ans) == Trace([], Completed)
  {
  }

  /** No word boundary is needed after the trigger: `leekban 1` is the
    * command line `ban 1`. */
  lemma TriggerNeedsNoBoundary()
    ensures Trigger <= "leekban 1" && Tokens("leekban 1") == ["ban", "1"]
  {
    var content := "leekban 1";
    assert content == Trigger + "ban 1";
    var rest := content[|Trigger|..];
    assert rest == "ban 1";
    TrimKeepsUnpadded(rest);
    var words := ["ban", "1"];
    assert JoinWithSpaces(words) == rest by {
      assert JoinWithSpaces(words[1..]) == "1";
    }
    assert NoAsciiWhitespace(words[0]) && NoAsciiWhitespace(words[1]);
    SplitJoinRoundTrip(words);
  }

  /** A first word that names no command draws one ⚠ and nothing else. */
  lemma UnknownCommandWarns(ev: Event, ans: Answers)
    requires Dispatches(ev) && Lookup(CommandLine(ev)[0]).None?
    ensures Run(ev, ans) == Trace([React(Warning)], Completed)
  {
  }

  /** `purge` is one of those words, whatever follows it. */
  lemma PurgeWarns(ev: Event, ans: Answers)
    requires Dispatches(ev) && CommandLine(ev)[0] == "purge"
    ensures Run(ev, ans) == Trace([React(Warning)], Completed)
  {
    PurgeIsNotACommand();
  }

  /** Once a command is found and the permissions are known, the run is the
    * permission gate followed by the command's execution. */
  lemma RunCommand(ev: Event, ans: Answers)
    requires Dispatches(ev) && Lookup(CommandLine(ev)[0]).Some? && ans.permissions.Some?
    ensures Run(ev, ans) == Prefixed(
      PermissionGate(Lookup(CommandLine(ev)[0]).value.permissions, ans.permissions.value),
      Execute(ev.message, CommandLine(ev), Lookup(CommandLine(ev)[0]).value, ans))
  {
  }

  /** The command's execution does not consult the permissions. */
  lemma ExecuteIgnoresPermissions(message: Message, tokens: seq<string>, cmd: LeekCommand, ans: Answers, p: Option<set<Permission>>)
    requires tokens != [] && Lookup(tokens[0]) == Some(cmd)
    ensures Execute(message, tokens, cmd, ans) == Execute(message, tokens, cmd, ans.(permissions := p))
  {
  }

  /** A denied permission adds a ❌ in front and changes nothing else: the
    * run goes on exactly as it would for an author holding the permission. */
  lemma DenialDoesNotShortCircuit(ev: Event, ans: Answers, denied: set<Permission>, allowed: set<Permission>)
    requires Dispatches(ev) && Lookup(CommandLine(ev)[0]).Some?
    requires !Permitted(Lookup(CommandLine(ev)[0]).value.permissions, denied)
    requires Permitted(Lookup(CommandLine(ev)[0]).value.permissions, allowed)
    ensures Run(ev, ans.(permissions := Some(denied)))
         == Prefixed([React(CrossMark)], Run(ev, ans.(permissions := Some(allowed))))
  {
    var cmd := Lookup(CommandLine(ev)[0]).value;
    var ansDenied, ansAllowed := ans.(permissions := Some(denied)), ans.(permissions := Some(allowed));
    var t := Execute(ev.message, CommandLine(ev), cmd, ansDenied);
    RunCommand(ev, ansDenied);
    RunCommand(ev, ansAllowed);
    ExecuteIgnoresPermissions(ev.message, CommandLine(ev), cmd, ansDenied, Some(allowed));
    assert ansDenied.(permissions := Some(allowed)) == ansAllowed;
    assert PermissionGate(cmd.permissions, denied) == [React(CrossMark)];
    assert PermissionGate(cmd.permissions, allowed) == [];
    assert Run(ev, ansAllowed) == Prefixed([], t);
    assert [] + t.effects == t.effects;
  }

  /** A parse failure leads to one reply carrying the error text, after the
    * ❌ of a denied permission if there was one; nothing is fetched or
    * deleted. A text too long for a message panics in the builder. */
  lemma ParseFailureOnlyReplies(ev: Event, ans: Answers, e: ParseError)
    requires Dispatches(ev) && Lookup(CommandLine(ev)[0]).Some? && ans.permissions.Some?
    requires TryGetMatchesFrom(Lookup(CommandLine(ev)[0]).value.args, CommandLine(ev)) == Err(e)
    ensures |ErrorText(e)| <= MaxContentLength ==> Run(ev, ans) == Trace(
      PermissionGate(Lookup(CommandLine(ev)[0]).value.permissions, ans.permissions.value)
        + [Reply(ErrorText(e))],
      Completed)
    ensures |ErrorText(e)| > MaxContentLength ==> Run(ev, ans) == Trace(
      PermissionGate(Lookup(CommandLine(ev)[0]).value.permissions, ans.permissions.value),
      Panicked)
  {
    var cmd := Lookup(CommandLine(ev)[0]).value;
    var gate := PermissionGate(cmd.permissions, ans.permissions.value);
    RunCommand(ev, ans);
    var exec := Execute(ev.message, CommandLine(ev), cmd, ans);
    assert exec == SendReply([], ErrorText(e));
    assert Run(ev, ans) == Prefixed(gate, exec);
    if |ErrorText(e)| <= MaxContentLength {
      assert exec == Trace([Reply(ErrorText(e))], Completed);
    } else {
      assert exec == Trace([], Panicked);
      assert gate + [] == gate;
    }
  }

  /** `clear -a <k>` is accepted exactly when 1 <= k <= 1000. */
  lemma ClearAmountBounds(k: nat)
    ensures TryGetMatchesFrom(ClearSchema(), ["clear", "-a", NatToString(k)])
         == if 1 <= k <= 1000 then Ok(map["amount" := Number(k)])
            else Err(InvalidValue("amount", NatToString(k)))
  {
    var schema := ClearSchema();
    var raw := NatToString(k);
    var argv := ["clear", "-a", raw];
    assert argv[1..] == ["-a", raw];
    assert ["-a", raw][1..] == [raw];
    assert TryGetMatchesFrom(schema, argv) == ParseTokens(schema, ["-a", raw], map[], false);
    assert !IsFlagLike(raw) by { assert IsDigit(raw[0]); }
    assert FindShort(schema, 'a') == Some(2);
    ParseI64OfNatToString(k);
    assert "-a"[1..] == "a" && "a"[1..] == [];
    var cluster := ParseCluster(schema, "a", Some(raw), map[]);
    assert cluster == match StoreValue(schema, 2, raw, map[])
      case Err(e) => Err(e)
      case Ok(m') => Ok((m', true));
    assert ParseTokens(schema, ["-a", raw], map[], false) == match cluster
      case Err(e) => Err(e)
      case Ok((m', tookNext)) => ParseTokens(schema, if tookNext then [raw][1..] else [raw], m', false);
    if 1 <= k <= 1000 {
      var m := map["amount" := Number(k)];
      assert StoreValue(schema, 2, raw, map[]) == Ok(m);
      assert [raw][1..] == [];
      assert MissingRequiredArg(schema, m).None?;
      assert FlagDefaults(schema, 3, m) == m;
      assert FlagDefaults(schema, 2, m) == m;
      assert FlagDefaults(schema, 1, m) == m;
      assert FlagDefaults(schema, 0, m) == m;
      assert ParseTokens(schema, [], m, false) == Ok(m);
    } else {
      assert StoreValue(schema, 2, raw, map[]) == Err(InvalidValue("amount", raw));
    }
  }

  /** `clear -a <k>` with k outside [1, 1000] is answered with the parser's
    * error text and nothing else. */
  lemma ClearAmountOutOfRangeReplies(ev: Event, ans: Answers, k: nat)
    requires Dispatches(ev) && CommandLine(ev) == ["clear", "-a", NatToString(k)] && ans.permissions.Some?
    requires k == 0 || k > 1000
    requires |ErrorText(InvalidValue("amount", NatToString(k)))| <= MaxContentLength
    ensures Run(ev, ans) == Trace(
      PermissionGate(Some({ManageMessages}), ans.permissions.value)
        + [Reply(ErrorText(InvalidValue("amount", NatToString(k))))],
      Completed)
  {
    ClearAmountBounds(k);
    ParseFailureOnlyReplies(ev, ans, InvalidValue("amount", NatToString(k)));
  }

  /** After a successful fetch, the purge arm continues with `Purged`. */
  lemma ClearAfterFetch(message: Message, matched: Matches, ans: Answers, msgs: seq<FetchedMessage>)
    requires Fits(ClearSchema(), matched)
    requires NumberArg(matched, "before") != Some(0)
    requires NumberArg(matched, "amount").GetOr(10) <= MaxFetchLimit
    requires ans.fetched == Some(msgs)
    ensures NumberArg(matched, "before").GetOr(message.id) >= 0
    ensures 1 <= NumberArg(matched, "amount").GetOr(10)
    ensures Clear(message, matched, ans)
         == Purged(FetchMessages(NumberArg(matched, "before").GetOr(message.id), NumberArg(matched, "amount").GetOr(10)), msgs)
  {
    ClearArgumentsInRange(matched);
  }

  /** `Purged` in terms of the fetched messages rather than the fold. */
  lemma PurgedUnfold(fetch: Effect, msgs: seq<FetchedMessage>)
    requires Accepted(fetch)
    ensures !(MinBulkDelete <= |msgs| <= MaxBulkDelete) ==>
      Purged(fetch, msgs) == Trace([React(BabySymbol), fetch], Panicked)
    ensures MinBulkDelete <= |msgs| <= MaxBulkDelete ==>
      Purged(fetch, msgs) == SendReply([React(BabySymbol), fetch, DeleteMessages(IdsOf(msgs)), ClearReactions], Report(msgs))
  {
    FoldCounts(msgs);
    var ids := Fold(msgs).ids;
    assert ids == IdsOf(msgs);
    assert [React(BabySymbol), fetch] + [DeleteMessages(ids), ClearReactions] == [React(BabySymbol), fetch, DeleteMessages(ids), ClearReactions];
  }

  /** The three ends of a purge once the messages are fetched. */
  lemma PurgedCases(fetch: Effect, msgs: seq<FetchedMessage>)
    requires Accepted(fetch)
    ensures (|msgs| < MinBulkDelete || |msgs| > MaxBulkDelete) ==>
      Purged(fetch, msgs) == Trace([React(BabySymbol), fetch], Panicked)
    ensures (MinBulkDelete <= |msgs| <= MaxBulkDelete && |Report(msgs)| <= MaxContentLength) ==>
      Purged(fetch, msgs) == Trace([React(BabySymbol), fetch, DeleteMessages(IdsOf(msgs)), ClearReactions, Reply(Report(msgs))], Completed)
    ensures (MinBulkDelete <= |msgs| <= MaxBulkDelete && |Report(msgs)| > MaxContentLength) ==>
      Purged(fetch, msgs) == Trace([React(BabySymbol), fetch, DeleteMessages(IdsOf(msgs)), ClearReactions], Panicked)
  {
    PurgedUnfold(fetch, msgs);
    var done := [React(BabySymbol), fetch, DeleteMessages(IdsOf(msgs)), ClearReactions];
    assert done + [Reply(Report(msgs))] == [React(BabySymbol), fetch, DeleteMessages(IdsOf(msgs)), ClearReactions, Reply(Report(msgs))];
  }

  /** A parsed `clear` runs the purge arm behind the permission gate. */
  lemma RunClear(ev: Event, ans: Answers, matched: Matches)
    requires Dispatches(ev) && CommandLine(ev)[0] == "clear" && ans.permissions.Some?
    requires TryGetMatchesFrom(ClearSchema(), CommandLine(ev)) == Ok(matched)
    ensures Run(ev, ans) == Prefixed(PermissionGate(Some({ManageMessages}), ans.permissions.value), Clear(ev.message, matched, ans))
  {
    RunCommand(ev, ans);
    assert Execute(ev.message, CommandLine(ev), Lookup("clear").value, ans) == Clear(ev.message, matched, ans);
  }

  /** A parsed `ban` runs the ban arm behind the permission gate. */
  lemma RunBan(ev: Event, ans: Answers, matched: Matches)
    requires Dispatches(ev) && CommandLine(ev)[0] == "ban" && ans.permissions.Some?
    requires TryGetMatchesFrom(BanSchema(), CommandLine(ev)) == Ok(matched)
    ensures Run(ev, ans) == Prefixed(PermissionGate(Some({BanMembers}), ans.permissions.value), Ban(ev.message, matched, ans))
  {
    RunCommand(ev, ans);
    assert Execute(ev.message, CommandLine(ev), Lookup("ban").value, ans) == Ban(ev.message, matched, ans);
  }

  /** The fetch limit is the parsed amount, 10 when none is given; the anchor
    * is the given `before` id, else the invoking message. When the fetch
    * returns a number of messages the bulk delete accepts and the report
    * fits in a message, the run completes with these effects. */
  lemma PurgeEffects(ev: Event, ans: Answers, matched: Matches, msgs: seq<FetchedMessage>)
    requires Dispatches(ev) && CommandLine(ev)[0] == "clear" && ans.permissions.Some?
    requires TryGetMatchesFrom(ClearSchema(), CommandLine(ev)) == Ok(matched)
    requires NumberArg(matched, "before") != Some(0)
    requires NumberArg(matched, "amount").GetOr(10) <= MaxFetchLimit
    requires ans.fetched == Some(msgs)
    requires MinBulkDelete <= |msgs| <= MaxBulkDelete
    requires |Report(msgs)| <= MaxContentLength
    ensures 1 <= NumberArg(matched, "amount").GetOr(10)
    ensures NumberArg(matched, "before").GetOr(ev.message.id) >= 0
    ensures Run(ev, ans) == Trace(
      PermissionGate(Some({ManageMessages}), ans.permissions.value) + [
        React(BabySymbol),
        FetchMessages(NumberArg(matched, "before").GetOr(ev.message.id), NumberArg(matched, "amount").GetOr(10)),
        DeleteMessages(IdsOf(msgs)),
        ClearReactions,
        Reply(Header(|msgs|) + Concat(Lines(Fold(msgs).stats, FirstSeen(msgs))))
      ],
      Completed)
  {
    RunClear(ev, ans, matched);
    ClearAfterFetch(ev.message, matched, ans, msgs);
    var fetch := FetchMessages(NumberArg(matched, "before").GetOr(ev.message.id), NumberArg(matched, "amount").GetOr(10));
    PurgedCases(fetch, msgs);
    ReportContents(msgs);
  }

  /** A fetch of fewer than 2 (or more than 100) messages panics in the bulk
    * delete's builder: nothing is deleted, the reactions stay and no report
    * is sent. So `clear -a 1`, and a purge of a channel with at most one
    * message, always panic. */
  lemma PurgeDeleteRefusedPanics(ev: Event, ans: Answers, matched: Matches, msgs: seq<FetchedMessage>)
    requires Dispatches(ev) && CommandLine(ev)[0] == "clear" && ans.permissions.Some?
    requires TryGetMatchesFrom(ClearSchema(), CommandLine(ev)) == Ok(matched)
    requires NumberArg(matched, "before") != Some(0)
    requires NumberArg(matched, "amount").GetOr(10) <= MaxFetchLimit
    requires ans.fetched == Some(msgs)
    requires |msgs| < MinBulkDelete || |msgs| > MaxBulkDelete
    ensures 1 <= NumberArg(matched, "amount").GetOr(10)
    ensures NumberArg(matched, "before").GetOr(ev.message.id) >= 0
    ensures Run(ev, ans) == Trace(
      PermissionGate(Some({ManageMessages}), ans.permissions.value) + [
        React(BabySymbol),
        FetchMessages(NumberArg(matched, "before").GetOr(ev.message.id), NumberArg(matched, "amount").GetOr(10))
      ],
      Panicked)
  {
    RunClear(ev, ans, matched);
    ClearAfterFetch(ev.message, matched, ans, msgs);
    var fetch := FetchMessages(NumberArg(matched, "before").GetOr(ev.message.id), NumberArg(matched, "amount").GetOr(10));
    PurgedCases(fetch, msgs);
  }

  /** A report longer than a message allows panics in the reply's builder,
    * after the messages are deleted and the reactions cleared. */
  lemma PurgeReplyTooLongPanics(ev: Event, ans: Answers, matched: Matches, msgs: seq<FetchedMessage>)
    requires Dispatches(ev) && CommandLine(ev)[0] == "clear" && ans.permissions.Some?
    requires TryGetMatchesFrom(ClearSchema(), CommandLine(ev)) == Ok(matched)
    requires NumberArg(matched, "before") != Some(0)
    requires NumberArg(matched, "amount").GetOr(10) <= MaxFetchLimit
    requires ans.fetched == Some(msgs)
    requires MinBulkDelete <= |msgs| <= MaxBulkDelete
    requires |Report(msgs)| > MaxContentLength
    ensures 1 <= NumberArg(matched, "amount").GetOr(10)
    ensures NumberArg(matched, "before").GetOr(ev.message.id) >= 0
    ensures Run(ev, ans) == Trace(
      PermissionGate(Some({ManageMessages}), ans.permissions.value) + [
        React(BabySymbol),
        FetchMessages(NumberArg(matched, "before").GetOr(ev.message.id), NumberArg(matched, "amount").GetOr(10)),
        DeleteMessages(IdsOf(msgs)),
        ClearReactions
      ],
      Panicked)
  {
    RunClear(ev, ans, matched);
    ClearAfterFetch(ev.message, matched, ans, msgs);
    var fetch := FetchMessages(NumberArg(matched, "before").GetOr(ev.message.id), NumberArg(matched, "amount").GetOr(10));
    PurgedCases(fetch, msgs);
    var effects := [React(BabySymbol), fetch, DeleteMessages(IdsOf(msgs)), ClearReactions];
    var gate := PermissionGate(Some({ManageMessages}), ans.permissions.value);
    assert Clear(ev.message, matched, ans) == Trace(effects, Panicked);
    assert Run(ev, ans) == Prefixed(gate, Trace(effects, Panicked));
    assert Prefixed(gate, Trace(effects, Panicked)) == Trace(gate + effects, Panicked);
  }

  /** An amount that clap accepts but the request builder refuses, or an
    * explicit `before` of 0, ends the run right after the 🚼, before
    * anything is fetched. */
  lemma ClearPanicsBeforeFetch(ev: Event, ans: Answers, matched: Matches)
    requires Dispatches(ev) && CommandLine(ev)[0] == "clear" && ans.permissions.Some?
    requires TryGetMatchesFrom(ClearSchema(), CommandLine(ev)) == Ok(matched)
    requires NumberArg(matched, "before") == Some(0) || NumberArg(matched, "amount").GetOr(10) > MaxFetchLimit
    ensures Run(ev, ans) == Trace(PermissionGate(Some({ManageMessages}), ans.permissions.value) + [React(BabySymbol)], Panicked)
  {
    RunCommand(ev, ans);
    assert Execute(ev.message, CommandLine(ev), Lookup("clear").value, ans) == Clear(ev.message, matched, ans);
  }

  /** A failed message fetch panics after the request: nothing is deleted,
    * the reactions stay and no report is sent. */
  lemma FetchFailurePanics(ev: Event, ans: Answers, matched: Matches)
    requires Dispatches(ev) && CommandLine(ev)[0] == "clear" && ans.permissions.Some?
    requires TryGetMatchesFrom(ClearSchema(), CommandLine(ev)) == Ok(matched)
    requires NumberArg(matched, "before") != Some(0)
    requires NumberArg(matched, "amount").GetOr(10) <= MaxFetchLimit
    requires ans.fetched.None?
    ensures 1 <= NumberArg(matched, "amount").GetOr(10)
    ensures NumberArg(matched, "before").GetOr(ev.message.id) >= 0
    ensures Run(ev, ans) == Trace(
      PermissionGate(Some({ManageMessages}), ans.permissions.value) + [
        React(BabySymbol),
        FetchMessages(NumberArg(matched, "before").GetOr(ev.message.id), NumberArg(matched, "amount").GetOr(10))
      ],
      Panicked)
  {
    RunClear(ev, ans, matched);
    ClearArgumentsInRange(matched);
  }

  /** A command whose permission lookup fails panics before anything is sent,
    * not even the permission gate's ❌. */
  lemma PermissionLookupFailurePanics(ev: Event, ans: Answers)
    requires Dispatches(ev) && Lookup(CommandLine(ev)[0]).Some? && ans.permissions.None?
    ensures Run(ev, ans) == Trace([], Panicked)
  {
  }

  /** The three ways a parsed `ban` can end once the victim is fetched: no
    * moderator data, a victim who is not outranked, or the one reply. */
  lemma BanOutcomes(ev: Event, ans: Answers, matched: Matches, target: nat)
    requires Dispatches(ev) && CommandLine(ev)[0] == "ban" && ans.permissions.Some?
    requires TryGetMatchesFrom(BanSchema(), CommandLine(ev)) == Ok(matched)
    requires NumberArg(matched, "user") == Some(target) && target != 0 && target in ans.members
    ensures ev.message.memberRoles.None? ==>
      Run(ev, ans) == Trace(PermissionGate(Some({BanMembers}), ans.permissions.value) + [React(CrossMark)], Completed)
    ensures (ev.message.memberRoles.Some? &&
             TopRole(ans.members[target].roles, ans.roleCache) >= TopRole(ev.message.memberRoles.value, ans.roleCache)) ==>
      Run(ev, ans) == Trace(PermissionGate(Some({BanMembers}), ans.permissions.value) + [React(CrossMark)], Completed)
    ensures (ev.message.memberRoles.Some? &&
             TopRole(ans.members[target].roles, ans.roleCache) < TopRole(ev.message.memberRoles.value, ans.roleCache) &&
             |BanText(ans.members[target].username, ans.banTemplate)| <= MaxContentLength) ==>
      Run(ev, ans) == Trace(
        PermissionGate(Some({BanMembers}), ans.permissions.value) + [
          Reply(BanText(ans.members[target].username, ans.banTemplate))
        ],
        Completed)
    ensures (ev.message.memberRoles.Some? &&
             TopRole(ans.members[target].roles, ans.roleCache) < TopRole(ev.message.memberRoles.value, ans.roleCache) &&
             |BanText(ans.members[target].username, ans.banTemplate)| > MaxContentLength) ==>
      Run(ev, ans) == Trace(PermissionGate(Some({BanMembers}), ans.permissions.value), Panicked)
  {
    RunBan(ev, ans, matched);
    BanCases(ev.message, matched, ans, target);
    var gate := PermissionGate(Some({BanMembers}), ans.permissions.value);
    var text := BanText(ans.members[target].username, ans.banTemplate);
    var ban := Ban(ev.message, matched, ans);
    assert Run(ev, ans) == Prefixed(gate, ban);
    if ev.message.memberRoles.None? ||
       TopRole(ans.members[target].roles, ans.roleCache) >= TopRole(ev.message.memberRoles.value, ans.roleCache) {
      assert ban == Trace([React(CrossMark)], Completed);
    } else if |text| <= MaxContentLength {
      assert ban == Trace([Reply(text)], Completed);
    } else {
      assert ban == Trace([], Panicked);
      assert gate + [] == gate;
    }
  }

  /** The ban arm's ends once the victim is fetched. */
  lemma BanCases(message: Message, matched: Matches, ans: Answers, target: nat)
    requires Fits(BanSchema(), matched)
    requires NumberArg(matched, "user") == Some(target) && target != 0 && target in ans.members
    ensures message.memberRoles.None? ==> Ban(message, matched, ans) == Trace([React(CrossMark)], Completed)
    ensures (message.memberRoles.Some? &&
             TopRole(ans.members[target].roles, ans.roleCache) >= TopRole(message.memberRoles.value, ans.roleCache)) ==>
      Ban(message, matched, ans) == Trace([React(CrossMark)], Completed)
    ensures (message.memberRoles.Some? &&
             TopRole(ans.members[target].roles, ans.roleCache) < TopRole(message.memberRoles.value, ans.roleCache)) ==>
      Ban(message, matched, ans) == SendReply([], BanText(ans.members[target].username, ans.banTemplate))
  {
    BanTemplateRendering(ans.banTemplate, BanMessageData(target, ans.members[target].username));
  }

  /** The announcement for a victim, with template `n`. */
  function BanText(username: string, n: TemplateIndex): string {
    "**" + username + (if n == 1 then PackedUp else BrokeLegs)
  }

  /** A username of at most 32 characters, the most a Discord username has,
    * always fits in the announcement. */
  lemma UsernameReplyFits(username: string, n: TemplateIndex)
    requires |username| <= 32
    ensures |BanText(username, n)| <= MaxContentLength
  {
    assert |BrokeLegs| == 49 && |PackedUp| == 21;
  }

  /** A parsed `ban` always carries its user id, so the early return that
    * guards a missing one is never taken. */
  lemma BanTargetAlwaysParsed(argv: seq<string>, matched: Matches)
    requires TryGetMatchesFrom(BanSchema(), argv) == Ok(matched)
    ensures NumberArg(matched, "user").Some? && 0 <= NumberArg(matched, "user").value < U64_LIMIT
  {
    assert BanSchema()[0].required;
    BanArgumentsPresent(matched);
  }

  /** A `ban` of user 0 or of a user the guild does not have panics before
    * anything but the permission ❌ is sent. */
  lemma BanLookupFailurePanics(ev: Event, ans: Answers, matched: Matches, target: nat)
    requires Dispatches(ev) && CommandLine(ev)[0] == "ban" && ans.permissions.Some?
    requires TryGetMatchesFrom(BanSchema(), CommandLine(ev)) == Ok(matched)
    requires NumberArg(matched, "user") == Some(target) && (target == 0 || target !in ans.members)
    ensures Run(ev, ans) == Trace(PermissionGate(Some({BanMembers}), ans.permissions.value), Panicked)
  {
    var gate := PermissionGate(Some({BanMembers}), ans.permissions.value);
    RunBan(ev, ans, matched);
    assert Ban(ev.message, matched, ans) == Trace([], Panicked);
    assert gate + [] == gate;
  }

  /** `--after` is parsed but never read. */
  lemma AfterIsIgnored(message: Message, matched: Matches, ans: Answers)
    requires Fits(ClearSchema(), matched)
    ensures Fits(ClearSchema(), matched - {"after"})
    ensures Clear(message, matched, ans) == Clear(message, matched - {"after"}, ans)
  {
    var m' := matched - {"after"};
    forall id | id in m'
      ensures exists i :: 0 <= i < |ClearSchema()| && ClearSchema()[i].id == id && ValueFits(ClearSchema()[i].action, m'[id])
    {
      var i :| 0 <= i < |ClearSchema()| && ClearSchema()[i].id == id && ValueFits(ClearSchema()[i].action, matched[id]);
    }
    assert NumberArg(matched, "amount") == NumberArg(m', "amount");
    assert NumberArg(matched, "before") == NumberArg(m', "before");
  }

  /** `--soft` is parsed but never read. */
  lemma SoftIsIgnored(message: Message, matched: Matches, ans: Answers)
    requires Fits(BanSchema(), matched)
    ensures Fits(BanSchema(), matched - {"soft"})
    ensures Ban(message, matched, ans) == Ban(message, matched - {"soft"}, ans)
  {
    var m' := matched - {"soft"};
    forall id | id in m'
      ensures exists i :: 0 <= i < |BanSchema()| && BanSchema()[i].id == id && ValueFits(BanSchema()[i].action, m'[id])
    {
      var i :| 0 <= i < |BanSchema()| && BanSchema()[i].id == id && ValueFits(BanSchema()[i].action, matched[id]);
    }
    assert NumberArg(matched, "user") == NumberArg(m', "user");
  }
}

=== FILE: hierarchy.dfy ===
/**
 * A member's top role: the highest position among those of its roles that
 * the cache knows, 0 when it knows none; and the strict comparison a ban
 * must pass.
 */
module Hierarchy {
  import opened Wrappers

  type RoleId = nat

  predicate NoneCached(roles: seq<RoleId>, cache: map<RoleId, int>) {
    forall i :: 0 <= i < |roles| ==> roles[i] !in cache
  }

  /** `roles.iter().flat_map(cache.role).map(position).max_by(cmp)`: roles
    * missing from the cache are skipped. */
  function MaxCachedPosition(roles: seq<RoleId>, cache: map<RoleId, int>): (r: Option<int>)
    ensures r.None? <==> NoneCached(roles, cache)
    ensures r.Some? ==> exists i :: 0 <= i < |roles| && roles[i] in cache && cache[roles[i]] == r.value
    ensures r.Some? ==> forall i :: 0 <= i < |roles| && roles[i] in cache ==> cache[roles[i]] <= r.value
  {
    if roles == [] then None
    else
      var rest := MaxCachedPosition(roles[1..], cache);
      assert forall i :: 1 <= i < |roles| ==> roles[i] == roles[1..][i - 1];
      if roles[0] !in cache then rest
      else match rest
        case None => Some(cache[roles[0]])
        case Some(p) => Some(if cache[roles[0]] > p then cache[roles[0]] else p)
  }

  /** `... .unwrap_or(0)`: the highest cached position, 0 when none of the
    * roles is cached. */
  function TopRole(roles: seq<RoleId>, cache: map<RoleId, int>): (top: int)
    ensures forall i :: 0 <= i < |roles| && roles[i] in cache ==> cache[roles[i]] <= top
    ensures NoneCached(roles, cache) ==> top == 0
    ensures !NoneCached(roles, cache) ==> exists i :: 0 <= i < |roles| && roles[i] in cache && cache[roles[i]] == top
  {
    MaxCachedPosition(roles, cache).GetOr(0)
  }

  /** The ban goes ahead only when the victim ranks strictly below the
    * moderator. */
  predicate Outranks(moderatorTop: int, victimTop: int) {
    victimTop < moderatorTop
  }

  /** Two members of equal rank never ban each other, and of two members at
    * most one may ban the other. */
  lemma OutranksIsStrict(a: int, b: int)
    ensures !Outranks(a, a)
    ensures Outranks(a, b) ==> !Outranks(b, a)
  {
  }

  /** Two members none of whose roles are cached can never ban each other. */
  lemma RolelessNeverOutranks(moderator: seq<RoleId>, victim: seq<RoleId>, cache: map<RoleId, int>)
    requires NoneCached(moderator, cache) && NoneCached(victim, cache)
    ensures !Outranks(TopRole(moderator, cache), TopRole(victim, cache))
  {
  }

  /** Ranking is decided by the top roles alone: a moderator cannot ban a
    * member who holds one of the moderator's own top-ranked roles. */
  lemma SharedTopRoleBlocks(moderator: seq<RoleId>, victim: seq<RoleId>, cache: map<RoleId, int>, r: RoleId)
    requires r in cache && r in moderator && r in victim
    requires cache[r] == TopRole(moderator, cache)
    ensures !Outranks(TopRole(moderator, cache), TopRole(victim, cache))
  {
    var i :| 0 <= i < |victim| && victim[i] == r;
  }
}

=== FILE: purge.dfy ===
/**
 * The `clear` command's bookkeeping: the fold over the fetched messages that
 * fills `purge_stats` and `overall_count` and collects the ids to delete, and
 * the report text built from the statistics.
 */
module Purge {
  import opened Text

  type MessageId = nat

  /** What the fold reads of a fetched message: its id and its author. */
  datatype FetchedMessage = FetchedMessage(id: MessageId, authorId: nat, authorName: string)

  /** `(author.id, author.name)`, the key of `purge_stats`. */
  type AuthorKey = (nat, string)

  datatype PurgeStats = PurgeStats(stats: map<AuthorKey, nat>, overallCount: nat, ids: seq<MessageId>)

  function AuthorOf(m: FetchedMessage): AuthorKey {
    (m.authorId, m.authorName)
  }

  /** One message: a first-seen author is inserted with 0, a known one has
    * its count raised; either way the total grows and the id is kept. */
  function Step(p: PurgeStats, m: FetchedMessage): (r: PurgeStats)
    ensures r.overallCount == p.overallCount + 1 && r.ids == p.ids + [m.id]
    ensures r.stats.Keys == p.stats.Keys + {AuthorOf(m)}
    ensures forall k :: k in p.stats && k != AuthorOf(m) ==> r.stats[k] == p.stats[k]
    ensures r.stats[AuthorOf(m)] == if AuthorOf(m) in p.stats then p.stats[AuthorOf(m)] + 1 else 0
  {
    var key := AuthorOf(m);
    if key in p.stats then PurgeStats(p.stats[key := p.stats[key] + 1], p.overallCount + 1, p.ids + [m.id])
    else PurgeStats(p.stats[key := 0], p.overallCount + 1, p.ids + [m.id])
  }

  /** The fold over the messages in fetch order. */
  function Fold(msgs: seq<FetchedMessage>): (r: PurgeStats)
    ensures r.stats.Keys == Authors(msgs)
  {
    if msgs == [] then PurgeStats(map[], 0, [])
    else Step(Fold(msgs[..|msgs| - 1]), msgs[|msgs| - 1])
  }

  /** How many of the messages were written by `key`. */
  function Occurrences(msgs: seq<FetchedMessage>, key: AuthorKey): nat {
    if msgs == [] then 0
    else Occurrences(msgs[..|msgs| - 1], key) + (if AuthorOf(msgs[|msgs| - 1]) == key then 1 else 0)
  }

  /** The distinct authors of the messages. */
  function Authors(msgs: seq<FetchedMessage>): set<AuthorKey> {
    if msgs == [] then {} else Authors(msgs[..|msgs| - 1]) + {AuthorOf(msgs[|msgs| - 1])}
  }

  function IdsOf(msgs: seq<FetchedMessage>): seq<MessageId> {
    seq(|msgs|, i requires 0 <= i < |msgs| => msgs[i].id)
  }

  /** An author occurs exactly when it is one of the authors. */
  lemma {:induction false} OccursIffAuthor(msgs: seq<FetchedMessage>, key: AuthorKey)
    ensures Occurrences(msgs, key) > 0 <==> key in Authors(msgs)
  {
    if msgs != [] {
      OccursIffAuthor(msgs[..|msgs| - 1], key);
    }
  }

  /** The fold's three guarantees: the total is the number of messages and of
    * collected ids, the keys are exactly the distinct authors, and an author
    * seen k times is stored with k - 1. */
  lemma {:induction false} FoldCounts(msgs: seq<FetchedMessage>)
    ensures Fold(msgs).overallCount == |msgs| == |Fold(msgs).ids|
    ensures Fold(msgs).ids == IdsOf(msgs)
    ensures Fold(msgs).stats.Keys == Authors(msgs)
    ensures forall k :: k in Fold(msgs).stats ==> Fold(msgs).stats[k] == Occurrences(msgs, k) - 1
  {
    if msgs != [] {
      var prefix := msgs[..|msgs| - 1];
      var last := msgs[|msgs| - 1];
      FoldCounts(prefix);
      OccursIffAuthor(prefix, AuthorOf(last));
      assert IdsOf(msgs) == IdsOf(prefix) + [last.id];
      forall k | k in Fold(msgs).stats
        ensures Fold(msgs).stats[k] == Occurrences(msgs, k) - 1
      {
        OccursIffAuthor(prefix, k);
      }
    }
  }

  /** The authors are exactly the writers of the messages. */
  lemma {:induction false} AuthorsAreWriters(msgs: seq<FetchedMessage>, k: AuthorKey)
    ensures k in Authors(msgs) <==> exists i :: 0 <= i < |msgs| && AuthorOf(msgs[i]) == k
  {
    if msgs != [] {
      var prefix := msgs[..|msgs| - 1];
      AuthorsAreWriters(prefix, k);
      if k in Authors(prefix) {
        var i :| 0 <= i < |prefix| && AuthorOf(prefix[i]) == k;
        assert msgs[i] == prefix[i];
      } else if exists i :: 0 <= i < |msgs| && AuthorOf(msgs[i]) == k {
        var i :| 0 <= i < |msgs| && AuthorOf(msgs[i]) == k;
        if i < |prefix| {
          assert prefix[i] == msgs[i];
        }
      }
    }
  }

  predicate DistinctAuthors(msgs: seq<FetchedMessage>) {
    forall i, j :: 0 <= i < j < |msgs| ==> AuthorOf(msgs[i]) != AuthorOf(msgs[j])
  }

  /** Messages from pairwise different authors: one entry per message, each
    * stored with 0. */
  lemma {:induction false} DistinctAuthorsFold(msgs: seq<FetchedMessage>)
    requires DistinctAuthors(msgs)
    ensures |Fold(msgs).stats| == |msgs|
    ensures forall k :: k in Fold(msgs).stats ==> Fold(msgs).stats[k] == 0
  {
    if msgs != [] {
      var prefix := msgs[..|msgs| - 1];
      var last := msgs[|msgs| - 1];
      assert DistinctAuthors(prefix) by {
        forall i, j | 0 <= i < j < |prefix| ensures AuthorOf(prefix[i]) != AuthorOf(prefix[j]) {
          assert prefix[i] == msgs[i] && prefix[j] == msgs[j];
        }
      }
      DistinctAuthorsFold(prefix);
      AuthorsAreWriters(prefix, AuthorOf(last));
    }
  }

  /** Messages all from one author: a single entry, stored with one less
    * than the number of messages. */
  lemma {:induction false} SingleAuthorFold(msgs: seq<FetchedMessage>, a: AuthorKey)
    requires msgs != [] && forall i :: 0 <= i < |msgs| ==> AuthorOf(msgs[i]) == a
    ensures Fold(msgs).stats == map[a := |msgs| - 1]
  {
    var prefix := msgs[..|msgs| - 1];
    if prefix != [] {
      assert forall i :: 0 <= i < |prefix| ==> prefix[i] == msgs[i];
      SingleAuthorFold(prefix, a);
    }
    assert AuthorOf(msgs[|msgs| - 1]) == a;
  }

  /** The fold as the source runs it: a loop over the fetched messages that
    * updates the map, the counter and the id list in place. */
  method AggregatePurge(messages: seq<FetchedMessage>)
    returns (purgeStats: map<AuthorKey, nat>, overallCount: nat, ids: seq<MessageId>)
    ensures PurgeStats(purgeStats, overallCount, ids) == Fold(messages)
    ensures overallCount == |messages| && ids == IdsOf(messages)
    ensures purgeStats.Keys == Authors(messages)
    ensures forall k :: k in purgeStats ==> purgeStats[k] == Occurrences(messages, k) - 1
  {
    purgeStats, overallCount, ids := map[], 0, [];
    var i := 0;
    while i < |messages|
      invariant 0 <= i <= |messages|
      invariant PurgeStats(purgeStats, overallCount, ids) == Fold(messages[..i])
    {
      var e := messages[i];
      var key := (e.authorId, e.authorName);
      ghost var before := PurgeStats(purgeStats, overallCount, ids);
      assert messages[..i + 1][..i] == messages[..i];
      assert Fold(messages[..i + 1]) == Step(before, e);
      if key in purgeStats {
        purgeStats := purgeStats[key := purgeStats[key] + 1];
      } else {
        purgeStats := purgeStats[key := 0];
      }
      overallCount := overallCount + 1;
      ids := ids + [e.id];
      assert PurgeStats(purgeStats, overallCount, ids) == Step(before, e);
      i := i + 1;
    }
    assert messages[..i] == messages;
    FoldCounts(messages);
  }

  predicate Distinct<T(==)>(s: seq<T>) {
    forall i, j :: 0 <= i < j < |s| ==> s[i] != s[j]
  }

  /** The authors in order of first appearance; the model's stand-in for the
    * unspecified iteration order of the `HashMap`. */
  function FirstSeen(msgs: seq<FetchedMessage>): (r: seq<AuthorKey>)
    ensures Distinct(r)
    ensures forall k :: k in r <==> k in Authors(msgs)
    ensures forall i :: 0 <= i < |r| ==> r[i] in Fold(msgs).stats
  {
    if msgs == [] then []
    else
      var p := FirstSeen(msgs[..|msgs| - 1]);
      if AuthorOf(msgs[|msgs| - 1]) in p then p else p + [AuthorOf(msgs[|msgs| - 1])]
  }

  const LineClose: string := "**\n"

  /** One report line, `**name** (`id`): **count**` and a newline: it opens
    * with the bold name and ends with the count, which reads back. */
  function Line(key: AuthorKey, count: nat): (r: string)
    ensures "**" + key.1 + "** (`" <= r
    ensures |r| >= |NatToString(count)| + |LineClose|
    ensures r[|r| - |LineClose|..] == LineClose
    ensures var digits := r[|r| - |LineClose| - |NatToString(count)|..|r| - |LineClose|];
      AllDigits(digits) && DigitsValue(digits) == count
  {
    var digits := NatToString(count);
    DigitsValueOfNatToString(count);
    var front := "**" + key.1 + "** (`" + NatToString(key.0) + "`): **";
    var r := front + digits + LineClose;
    assert r[|r| - |LineClose|..] == LineClose;
    assert r[|r| - |LineClose| - |digits|..|r| - |LineClose|] == digits;
    assert r[..|"**" + key.1 + "** (`"|] == "**" + key.1 + "** (`";
    r
  }

  /** The report lines for the entries visited in `order`. */
  function Lines(stats: map<AuthorKey, nat>, order: seq<AuthorKey>): (r: seq<string>)
    requires forall i :: 0 <= i < |order| ==> order[i] in stats
    ensures |r| == |order|
    ensures forall i :: 0 <= i < |order| ==> r[i] == Line(order[i], stats[order[i]])
  {
    seq(|order|, i requires 0 <= i < |order| => Line(order[i], stats[order[i]]))
  }

  const HeaderOpen: string := ":ok_hand: Cleared **"
  const HeaderClose: string := "** messages.\n"

  /** The first line of the reply, before the per-author lines: the number
    * between its fixed opening and closing reads back as the count. */
  function Header(overallCount: nat): (r: string)
    ensures |r| > |HeaderOpen| + |HeaderClose|
    ensures r[..|HeaderOpen|] == HeaderOpen && r[|r| - |HeaderClose|..] == HeaderClose
    ensures var digits := r[|HeaderOpen|..|r| - |HeaderClose|];
      AllDigits(digits) && DigitsValue(digits) == overallCount
  {
    var digits := NatToString(overallCount);
    DigitsValueOfNatToString(overallCount);
    var r := HeaderOpen + digits + HeaderClose;
    assert r[..|HeaderOpen|] == HeaderOpen;
    assert r[|r| - |HeaderClose|..] == HeaderClose;
    assert r[|HeaderOpen|..|r| - |HeaderClose|] == digits;
    r
  }

  lemma {:induction false} ConcatSnoc(ss: seq<string>, s: string)
    ensures Concat(ss + [s]) == Concat(ss) + s
  {
    if ss == [] {
      assert [] + [s] == [s];
      assert Concat([s][1..]) == [];
    } else {
      assert (ss + [s])[1..] == ss[1..] + [s];
      ConcatSnoc(ss[1..], s);
    }
  }

  /** The report loop: `cleared_from.push_str(...)` once per entry. */
  method RenderReport(stats: map<AuthorKey, nat>, order: seq<AuthorKey>) returns (clearedFrom: string)
    requires forall i :: 0 <= i < |order| ==> order[i] in stats
    ensures clearedFrom == Concat(Lines(stats, order))
  {
    clearedFrom := "";
    for i := 0 to |order|
      invariant clearedFrom == Concat(Lines(stats, order[..i]))
    {
      var key := order[i];
      assert Lines(stats, order[..i + 1]) == Lines(stats, order[..i]) + [Line(key, stats[key])];
      ConcatSnoc(Lines(stats, order[..i]), Line(key, stats[key]));
      clearedFrom := clearedFrom + Line(key, stats[key]);
    }
    assert order[..|order|] == order;
  }

  lemma {:induction false} DistinctCardinality<T>(s: seq<T>)
    requires Distinct(s)
    ensures |set i | 0 <= i < |s| :: s[i]| == |s|
  {
    if s != [] {
      var prefix := s[..|s| - 1];
      DistinctCardinality(prefix);
      var whole := set i | 0 <= i < |s| :: s[i];
      var front := set i | 0 <= i < |prefix| :: prefix[i];
      assert whole == front + {s[|s| - 1]} by {
        forall x | x in whole ensures x in front + {s[|s| - 1]} {
          var i :| 0 <= i < |s| && s[i] == x;
          if i < |s| - 1 { assert prefix[i] == x; }
        }
        forall x | x in front ensures x in whole {
          var i :| 0 <= i < |prefix| && prefix[i] == x;
          assert s[i] == x;
        }
      }
      assert s[|s| - 1] !in front;
    }
  }

  /** Visiting each key of the map once, in any order, gives exactly one
    * report line per entry. */
  lemma OneLinePerEntry(stats: map<AuthorKey, nat>, order: seq<AuthorKey>)
    requires Distinct(order) && forall k :: k in order <==> k in stats
    ensures |Lines(stats, order)| == |stats|
    ensures forall k :: k in stats ==> Line(k, stats[k]) in Lines(stats, order)
    ensures forall i :: 0 <= i < |order| ==> exists k :: k in stats && Lines(stats, order)[i] == Line(k, stats[k])
  {
    DistinctCardinality(order);
    assert (set i | 0 <= i < |order| :: order[i]) == stats.Keys;
    forall k | k in stats ensures Line(k, stats[k]) in Lines(stats, order) {
      var i :| 0 <= i < |order| && order[i] == k;
      assert Lines(stats, order)[i] == Line(k, stats[k]);
    }
  }

  /** The reply sent after the purge. */
  function Report(msgs: seq<FetchedMessage>): (r: string)
    ensures Header(|msgs|) <= r
  {
    FoldCounts(msgs);
    var p := Fold(msgs);
    Header(p.overallCount) + Concat(Lines(p.stats, FirstSeen(msgs)))
  }

  /** The reply announces the number of fetched messages and has one line per
    * distinct author. */
  lemma ReportContents(msgs: seq<FetchedMessage>)
    ensures Fold(msgs).stats.Keys == Authors(msgs)
    ensures Report(msgs) == Header(|msgs|) + Concat(Lines(Fold(msgs).stats, FirstSeen(msgs)))
    ensures |Lines(Fold(msgs).stats, FirstSeen(msgs))| == |Authors(msgs)|
  {
    FoldCounts(msgs);
    OneLinePerEntry(Fold(msgs).stats, FirstSeen(msgs));
  }

  /** The line of an author carries the number of its messages beyond the
    * first. */
  lemma LineOfAuthor(msgs: seq<FetchedMessage>, k: AuthorKey)
    requires k in Authors(msgs)
    ensures Occurrences(msgs, k) > 0 && Line(k, Occurrences(msgs, k) - 1) in Lines(Fold(msgs).stats, FirstSeen(msgs))
  {
    var p := Fold(msgs);
    FoldCounts(msgs);
    OccursIffAuthor(msgs, k);
    var order := FirstSeen(msgs);
    var i :| 0 <= i < |order| && order[i] == k;
    var n: nat := Occurrences(msgs, k) - 1;
    assert p.stats[k] == n;
    assert Lines(p.stats, order)[i] == Line(k, n);
  }
}

=== FILE: registry.dfy ===
/**
 * The static command table `COMMANDS`: a map from command name to the
 * permission it needs and its clap argument schema, plus the permission
 * containment test the dispatcher applies to it.
 */
module Registry {
  import opened Wrappers
  import opened Args

  /** Twilight's `Permissions` bit flags, kept abstract: the two the table
    * names and any other flag. */
  datatype Permission = BanMembers | ManageMessages | OtherPermission(bit: nat)

  datatype LeekCommand = LeekCommand(permissions: Option<set<Permission>>, args: Schema)

  /** `ban <user> [-s|--soft]`. */
  function BanSchema(): Schema {
    [ ArgSpec("user", None, None, ["target"], Set(UnsignedFrom(0)), true),
      ArgSpec("soft", Some('s'), Some("soft"), [], SetTrue, false) ]
  }

  /** `clear [-b|--before <id>] [--after <id>] [-a|--amount|--amt <n>]`. */
  function ClearSchema(): Schema {
    [ ArgSpec("before", Some('b'), Some("before"), [], Set(UnsignedFrom(0)), false),
      ArgSpec("after", None, Some("after"), [], Set(UnsignedFrom(0)), false),
      ArgSpec("amount", Some('a'), Some("amount"), ["amt"], Set(SignedRange(1, 1001)), false) ]
  }

  /** The table as the two `insert` calls into an empty map build it. */
  function Commands(): map<string, LeekCommand> {
    map[]
      ["ban" := LeekCommand(Some({BanMembers}), BanSchema())]
      ["clear" := LeekCommand(Some({ManageMessages}), ClearSchema())]
  }

  /** Exact, case-sensitive lookup of a command name. */
  function Lookup(name: string): (r: Option<LeekCommand>)
    ensures r.Some? <==> name == "ban" || name == "clear"
    ensures name == "ban" ==> r == Some(LeekCommand(Some({BanMembers}), BanSchema()))
    ensures name == "clear" ==> r == Some(LeekCommand(Some({ManageMessages}), ClearSchema()))
  {
    if name in Commands() then Some(Commands()[name]) else None
  }

  /** `permissions.contains(cmd_perms)` when the command names a permission;
    * a command that names none is never refused. */
  predicate Permitted(required: Option<set<Permission>>, granted: set<Permission>)
    ensures Permitted(required, granted) <==> forall p :: required.Some? && p in required.value ==> p in granted
  {
    required.None? || required.value <= granted
  }

  /** `purge` is matched by the dispatcher but is not a key of the table. */
  lemma PurgeIsNotACommand()
    ensures Lookup("purge").None?
  {
  }

  /** Each command of the table names exactly one permission. */
  lemma CommandsNeedPermissions(name: string, granted: set<Permission>)
    requires Lookup(name).Some?
    ensures Permitted(Lookup(name).value.permissions, granted)
        <==> (if name == "ban" then BanMembers else ManageMessages) in granted
  {
  }
}

=== FILE: templates.dfy ===
/**
 * The two Handlebars ban templates and their rendering with the victim's
 * `BanMessagedata`: each `{{ username }}` or `{{ user_id }}` is replaced by
 * the field's value in one left-to-right pass (no HTML escaping).
 */
module Templates {
  import opened Wrappers
  import opened Text

  datatype BanMessageData = BanMessageData(userId: nat, username: string)

  const UsernameTag: string := "{{ username }}"
  const UserIdTag: string := "{{ user_id }}"

  const PackedUp: string := "** has been packed up"
  const BrokeLegs: string := "** broke their legs while jumping over a highwall"

  /** The registered templates, by name. */
  function BanTemplates(): map<string, string> {
    map[
      "ban_1" := "**" + UsernameTag + PackedUp,
      "ban_2" := "**" + UsernameTag + BrokeLegs
    ]
  }

  predicate NoBraces(s: string) {
    '{' !in s
  }

  /** Substitutes the data's fields for their tags. */
  function Fill(template: string, data: BanMessageData): string
    decreases |template|
  {
    if template == [] then []
    else if UsernameTag <= template then data.username + Fill(template[|UsernameTag|..], data)
    else if UserIdTag <= template then NatToString(data.userId) + Fill(template[|UserIdTag|..], data)
    else [template[0]] + Fill(template[1..], data)
  }

  /** `handlebars.render(name, data)`: fails for an unregistered name. */
  function Render(templates: map<string, string>, name: string, data: BanMessageData): (r: Option<string>)
    ensures r.Some? <==> name in templates
  {
    if name in templates then Some(Fill(templates[name], data)) else None
  }

  /** Text without a `{` is copied as it is. */
  lemma {:induction false} FillPlain(text: string, rest: string, data: BanMessageData)
    requires NoBraces(text)
    ensures Fill(text + rest, data) == text + Fill(rest, data)
    decreases |text|
  {
    if text != [] {
      var s := text + rest;
      assert s[0] == text[0] && text[0] in text;
      assert !(UsernameTag <= s) by { assert UsernameTag[0] == '{'; }
      assert !(UserIdTag <= s) by { assert UserIdTag[0] == '{'; }
      assert s[1..] == text[1..] + rest;
      assert NoBraces(text[1..]) by {
        forall c | c in text[1..] ensures c in text { }
      }
      FillPlain(text[1..], rest, data);
      calc {
        Fill(s, data);
        [s[0]] + Fill(s[1..], data);
        [text[0]] + (text[1..] + Fill(rest, data));
        { assert [text[0]] + text[1..] == text; }
        text + Fill(rest, data);
      }
    } else {
      assert text + rest == rest;
    }
  }

  /** A `{{ username }}` tag becomes the username. */
  lemma FillUsername(rest: string, data: BanMessageData)
    ensures Fill(UsernameTag + rest, data) == data.username + Fill(rest, data)
  {
    assert UsernameTag <= UsernameTag + rest;
    assert (UsernameTag + rest)[|UsernameTag|..] == rest;
  }

  /** A template made of bold markup, the username tag and brace-free
    * flavour text. */
  lemma FillBanTemplate(suffix: string, data: BanMessageData)
    requires NoBraces(suffix)
    ensures Fill("**" + UsernameTag + suffix, data) == "**" + data.username + suffix
  {
    assert "**" + UsernameTag + suffix == "**" + (UsernameTag + suffix);
    FillPlain("**", UsernameTag + suffix, data);
    FillUsername(suffix, data);
    FillPlain(suffix, [], data);
    assert suffix + [] == suffix;
  }

  lemma FlavourTextsHaveNoBraces()
    ensures NoBraces(PackedUp) && NoBraces(BrokeLegs)
  {
    assert '{' !in PackedUp;
    BrokeLegsHasNoBraces();
  }

  lemma BrokeLegsHasNoBraces()
    ensures '{' !in BrokeLegs
  {
    var a, b, c := "** broke their", " legs while jump", "ing over a highwall";
    assert BrokeLegs == a + b + c;
    assert '{' !in a;
    assert '{' !in b;
    assert '{' !in c;
  }

  lemma BanTemplateName(n: int)
    requires n == 1 || n == 2
    ensures "ban_" + NatToString(n) == if n == 1 then "ban_1" else "ban_2"
  {
    assert NatToString(n) == [DigitChar(n)];
  }

  /** Both ban templates render to the username in bold followed by their
    * flavour text; the user id does not appear in either. */
  lemma BanTemplateRendering(n: int, data: BanMessageData)
    requires n == 1 || n == 2
    ensures Render(BanTemplates(), "ban_" + NatToString(n), data)
         == Some("**" + data.username + (if n == 1 then PackedUp else BrokeLegs))
  {
    BanTemplateName(n);
    FlavourTextsHaveNoBraces();
    var suffix := if n == 1 then PackedUp else BrokeLegs;
    FillBanTemplate(suffix, data);
    assert BanTemplates()["ban_" + NatToString(n)] == "**" + UsernameTag + suffix;
  }
}

=== FILE: text.dfy ===
/**
 * The string primitives the dispatcher relies on, as Rust's standard library
 * defines them: `str::trim`, `str::split_ascii_whitespace`, decimal rendering
 * (`format!("{}")`) and the integer parsers `u64::from_str` and `i64::from_str`
 * that clap's value parsers call.
 */
module Text {
  import opened Wrappers

  const U64_LIMIT: int := 0x1_0000_0000_0000_0000
  const I64_LIMIT: int := 0x8000_0000_0000_0000

  /** Rust's `char::is_whitespace`: the Unicode White_Space property. */
  predicate IsWhitespace(c: char) {
    var n := c as int;
    (0x09 <= n <= 0x0D) || n == 0x20 || n == 0x85 || n == 0xA0 || n == 0x1680
    || (0x2000 <= n <= 0x200A) || n == 0x2028 || n == 0x2029 || n == 0x202F
    || n == 0x205F || n == 0x3000
  }

  /** Rust's `u8::is_ascii_whitespace`: space, tab, line feed, form feed and
    * carriage return (vertical tab is not included). */
  predicate IsAsciiWhitespace(c: char) {
    c == ' ' || c == '\t' || c == '\n' || c as int == 0x0C || c == '\r'
  }

  predicate NoAsciiWhitespace(s: string) {
    forall i :: 0 <= i < |s| ==> !IsAsciiWhitespace(s[i])
  }

  /** `str::trim_start`: drops the longest all-whitespace prefix. */
  function TrimStart(s: string): (r: string)
    ensures |r| <= |s| && r == s[|s| - |r|..]
    ensures forall k :: 0 <= k < |s| - |r| ==> IsWhitespace(s[k])
    ensures r != [] ==> !IsWhitespace(r[0])
  {
    if s != [] && IsWhitespace(s[0]) then
      var r := TrimStart(s[1..]);
      assert s[1..][|s| - 1 - |r|..] == s[|s| - |r|..];
      assert forall k :: 1 <= k < |s| - |r| ==> s[k] == s[1..][k - 1];
      r
    else s
  }

  /** `str::trim_end`: drops the longest all-whitespace suffix. */
  function TrimEnd(s: string): (r: string)
    ensures |r| <= |s| && r == s[..|r|]
    ensures forall k :: |r| <= k < |s| ==> IsWhitespace(s[k])
    ensures r != [] ==> !IsWhitespace(r[|r| - 1])
  {
    if s != [] && IsWhitespace(s[|s| - 1]) then TrimEnd(s[..|s| - 1]) else s
  }

  /** `str::trim`: whitespace removed at both ends. */
  function Trim(s: string): string {
    TrimEnd(TrimStart(s))
  }

  /** A string with no whitespace at either end is its own trim. */
  lemma TrimKeepsUnpadded(s: string)
    requires s != [] && !IsWhitespace(s[0]) && !IsWhitespace(s[|s| - 1])
    ensures Trim(s) == s
  {
    assert TrimStart(s) == s;
  }

  /** The longest prefix of `s` free of ASCII whitespace. */
  function Word(s: string): (w: string)
    ensures |w| <= |s| && w == s[..|w|] && NoAsciiWhitespace(w)
    ensures |w| < |s| ==> IsAsciiWhitespace(s[|w|])
  {
    if s == [] || IsAsciiWhitespace(s[0]) then [] else [s[0]] + Word(s[1..])
  }

  function Concat(ss: seq<string>): string {
    if ss == [] then [] else ss[0] + Concat(ss[1..])
  }

  /** The characters of `s` that are not ASCII whitespace, in order. */
  function Squeeze(s: string): string {
    if s == [] then []
    else (if IsAsciiWhitespace(s[0]) then [] else [s[0]]) + Squeeze(s[1..])
  }

  /** `str::split_ascii_whitespace`: the maximal runs of non-whitespace
    * characters; empty pieces are dropped. */
  function SplitAsciiWhitespace(s: string): (r: seq<string>)
    ensures forall i :: 0 <= i < |r| ==> r[i] != [] && NoAsciiWhitespace(r[i])
    ensures Concat(r) == Squeeze(s)
    decreases |s|
  {
    if s == [] then []
    else if IsAsciiWhitespace(s[0]) then SplitAsciiWhitespace(s[1..])
    else
      var w := Word(s);
      SqueezeWord(s);
      [w] + SplitAsciiWhitespace(s[|w|..])
  }

  /** Squeezing a string splits at its first word. */
  lemma {:induction false} SqueezeWord(s: string)
    ensures Squeeze(s) == Word(s) + Squeeze(s[|Word(s)|..])
    decreases |s|
  {
    if s != [] && !IsAsciiWhitespace(s[0]) {
      var w := Word(s[1..]);
      var rest := Squeeze(s[|Word(s)|..]);
      SqueezeWord(s[1..]);
      assert Word(s) == [s[0]] + w;
      assert s[1..][|w|..] == s[|Word(s)|..];
      assert Squeeze(s) == [s[0]] + (w + rest);
      assert [s[0]] + (w + rest) == ([s[0]] + w) + rest;
    }
  }

  /** Words joined by single spaces, the shape of a typed command line. */
  function JoinWithSpaces(ws: seq<string>): string {
    if ws == [] then [] else if |ws| == 1 then ws[0] else ws[0] + " " + JoinWithSpaces(ws[1..])
  }

  lemma {:induction false} WordOfJoined(w: string, rest: string)
    requires w != [] && NoAsciiWhitespace(w)
    requires rest == [] || IsAsciiWhitespace(rest[0])
    ensures Word(w + rest) == w
    decreases |w|
  {
    if |w| > 1 {
      assert (w + rest)[1..] == w[1..] + rest;
      WordOfJoined(w[1..], rest);
    } else {
      assert (w + rest)[1..] == rest;
    }
  }

  /** Splitting a space-joined command line gives its words back. */
  lemma {:induction false} SplitJoinRoundTrip(ws: seq<string>)
    requires forall i :: 0 <= i < |ws| ==> ws[i] != [] && NoAsciiWhitespace(ws[i])
    ensures SplitAsciiWhitespace(JoinWithSpaces(ws)) == ws
  {
    if |ws| == 1 {
      WordOfJoined(ws[0], []);
      assert ws[0] + [] == ws[0];
      assert JoinWithSpaces(ws)[|ws[0]|..] == [];
    } else if |ws| > 1 {
      var rest := JoinWithSpaces(ws[1..]);
      var s := ws[0] + " " + rest;
      WordOfJoined(ws[0], " " + rest);
      assert ws[0] + " " + rest == ws[0] + (" " + rest);
      assert s[|ws[0]|..] == " " + rest;
      assert (" " + rest)[1..] == rest;
      SplitJoinRoundTrip(ws[1..]);
      assert [ws[0]] + ws[1..] == ws;
    }
  }

  predicate AllAsciiWhitespace(s: string) {
    forall i :: 0 <= i < |s| ==> IsAsciiWhitespace(s[i])
  }

  /** `gaps[0] + words[0] + gaps[1] + ... + words[n - 1] + gaps[n]`. */
  function Interleave(gaps: seq<string>, words: seq<string>): string
    requires |gaps| == |words| + 1
  {
    if words == [] then gaps[0] else gaps[0] + words[0] + Interleave(gaps[1..], words[1..])
  }

  /** Whitespace gaps around and between `n` words: the outer two may be
    * empty, the inner ones may not. */
  predicate ValidGaps(gaps: seq<string>, n: nat) {
    && |gaps| == n + 1
    && (forall i :: 0 <= i < |gaps| ==> AllAsciiWhitespace(gaps[i]))
    && (forall i :: 0 < i < n ==> gaps[i] != [])
  }

  predicate ValidWords(words: seq<string>) {
    forall i :: 0 <= i < |words| ==> words[i] != [] && NoAsciiWhitespace(words[i])
  }

  /** Leading whitespace is skipped. */
  lemma {:induction false} SplitSkipsWhitespace(g: string, t: string)
    requires AllAsciiWhitespace(g)
    ensures SplitAsciiWhitespace(g + t) == SplitAsciiWhitespace(t)
    decreases |g|
  {
    if g != [] {
      assert (g + t)[0] == g[0];
      assert (g + t)[1..] == g[1..] + t;
      SplitSkipsWhitespace(g[1..], t);
    } else {
      assert g + t == t;
    }
  }

  /** Words separated by any non-empty runs of ASCII whitespace, with any
    * padding at both ends, are split back into exactly those words. */
  lemma {:induction false} SplitInterleaveRoundTrip(gaps: seq<string>, words: seq<string>)
    requires ValidGaps(gaps, |words|) && ValidWords(words)
    ensures SplitAsciiWhitespace(Interleave(gaps, words)) == words
  {
    if words == [] {
      SplitSkipsWhitespace(gaps[0], []);
      assert gaps[0] + [] == gaps[0];
    } else {
      var rest := Interleave(gaps[1..], words[1..]);
      assert rest == [] || IsAsciiWhitespace(rest[0]) by {
        if words[1..] != [] {
          assert gaps[1] != [] && rest[0] == gaps[1][0];
        }
      }
      assert Interleave(gaps, words) == gaps[0] + (words[0] + rest);
      SplitSkipsWhitespace(gaps[0], words[0] + rest);
      WordOfJoined(words[0], rest);
      assert (words[0] + rest)[|words[0]|..] == rest;
      assert ValidGaps(gaps[1..], |words[1..]|) by {
        forall i | 0 < i < |words[1..]| ensures gaps[1..][i] != [] {
          assert gaps[1..][i] == gaps[i + 1];
        }
      }
      SplitInterleaveRoundTrip(gaps[1..], words[1..]);
      assert [words[0]] + words[1..] == words;
    }
  }

  lemma InterleaveLongerGap(c: char, g: seq<string>, words: seq<string>)
    requires |g| == |words| + 1
    ensures Interleave([[c] + g[0]] + g[1..], words) == [c] + Interleave(g, words)
  {
    var g' := [[c] + g[0]] + g[1..];
    assert g'[0] == [c] + g[0];
    if words != [] {
      assert g'[1..] == g[1..];
      assert ([c] + g[0]) + words[0] == [c] + (g[0] + words[0]);
    }
  }

  lemma InterleaveNewWord(w: string, g: seq<string>, words: seq<string>)
    requires |g| == |words| + 1
    ensures Interleave([[]] + g, [w] + words) == w + Interleave(g, words)
  {
    assert ([[]] + g)[1..] == g;
    assert ([w] + words)[1..] == words;
  }

  /** One more whitespace character in front of the first gap keeps the gaps valid. */
  lemma LongerGapValid(c: char, g: seq<string>, n: nat)
    requires IsAsciiWhitespace(c) && ValidGaps(g, n)
    ensures ValidGaps([[c] + g[0]] + g[1..], n)
  {
    var g' := [[c] + g[0]] + g[1..];
    forall i | 0 <= i < |g'| ensures AllAsciiWhitespace(g'[i]) {
      if i == 0 {
        forall j | 0 <= j < |g'[0]| ensures IsAsciiWhitespace(g'[0][j]) {
          if j > 0 { assert g'[0][j] == g[0][j - 1]; }
        }
      } else {
        assert g'[i] == g[i];
      }
    }
    forall i | 0 < i < n ensures g'[i] != [] {
      assert g'[i] == g[i];
    }
  }

  /** The gaps of a string that starts with whitespace. */
  lemma GapsAfterWhitespace(s: string, g: seq<string>, r: seq<string>)
    requires s != [] && |g| == |r| + 1 && s[1..] == Interleave(g, r)
    ensures s == Interleave([[s[0]] + g[0]] + g[1..], r)
  {
    InterleaveLongerGap(s[0], g, r);
    assert [s[0]] + s[1..] == s;
  }

  /** The gaps of a string that starts with a word. */
  lemma GapsAfterWord(s: string, g: seq<string>, tail: seq<string>)
    requires s != [] && !IsAsciiWhitespace(s[0])
    requires ValidGaps(g, |tail|) && ValidWords(tail) && s[|Word(s)|..] == Interleave(g, tail)
    ensures ValidGaps([[]] + g, |tail| + 1)
    ensures s == Interleave([[]] + g, [Word(s)] + tail)
  {
    var w := Word(s);
    var rest := s[|w|..];
    var g' := [[]] + g;
    forall i | 0 < i < |g'| ensures g'[i] == g[i - 1] { }
    InterleaveNewWord(w, g, tail);
    assert s == w + rest;
  }

  /** Every string is its own split words with whitespace gaps around and
    * between them; with `SplitInterleaveRoundTrip` this fixes the split of
    * every input. */
  lemma {:induction false} SplitDecomposes(s: string)
    ensures exists gaps :: ValidGaps(gaps, |SplitAsciiWhitespace(s)|) && s == Interleave(gaps, SplitAsciiWhitespace(s))
    decreases |s|
  {
    var r := SplitAsciiWhitespace(s);
    if s == [] {
      assert ValidGaps([[]], 0) && s == Interleave([[]], r);
    } else if IsAsciiWhitespace(s[0]) {
      SplitDecomposes(s[1..]);
      var g :| ValidGaps(g, |r|) && s[1..] == Interleave(g, r);
      LongerGapValid(s[0], g, |r|);
      GapsAfterWhitespace(s, g, r);
      var g' := [[s[0]] + g[0]] + g[1..];
      assert ValidGaps(g', |r|) && s == Interleave(g', r);
    } else {
      var tail := SplitAsciiWhitespace(s[|Word(s)|..]);
      assert r == [Word(s)] + tail;
      SplitDecomposes(s[|Word(s)|..]);
      var g :| ValidGaps(g, |tail|) && s[|Word(s)|..] == Interleave(g, tail);
      GapsAfterWord(s, g, tail);
      assert ValidGaps([[]] + g, |r|) && s == Interleave([[]] + g, r);
    }
  }

  predicate IsDigit(c: char) {
    '0' <= c <= '9'
  }

  predicate AllDigits(s: string) {
    forall i :: 0 <= i < |s| ==> IsDigit(s[i])
  }

  function DigitChar(d: nat): (c: char)
    requires d < 10
    ensures IsDigit(c) && c as int - '0' as int == d
  {
    ('0' as int + d) as char
  }

  /** The value of a string of decimal digits, most significant first. */
  function DigitsValue(s: string): nat
    requires AllDigits(s)
  {
    if s == [] then 0 else DigitsValue(s[..|s| - 1]) * 10 + (s[|s| - 1] as int - '0' as int)
  }

  /** Decimal rendering of a natural number, as `format!("{}", n)` writes it. */
  function NatToString(n: nat): (s: string)
    ensures s != [] && AllDigits(s)
    ensures s[0] == '0' ==> n == 0
    ensures n == 0 ==> s == "0"
  {
    if n < 10 then [DigitChar(n)] else NatToString(n / 10) + [DigitChar(n % 10)]
  }

  lemma {:induction false} DigitsValueOfNatToString(n: nat)
    ensures DigitsValue(NatToString(n)) == n
  {
    if n >= 10 {
      var s := NatToString(n);
      assert s[..|s| - 1] == NatToString(n / 10);
      DigitsValueOfNatToString(n / 10);
    }
  }

  /** `u64::from_str`: an optional `+`, then one or more decimal digits, with
    * a value below 2^64. */
  function ParseU64(s: string): (r: Option<nat>)
    ensures r.Some? ==> r.value < U64_LIMIT
  {
    var digits := if s != [] && s[0] == '+' then s[1..] else s;
    if digits != [] && AllDigits(digits) && DigitsValue(digits) < U64_LIMIT
    then Some(DigitsValue(digits))
    else None
  }

  /** `i64::from_str`: an optional `+` or `-`, then one or more decimal
    * digits, with a value in [-2^63, 2^63). */
  function ParseI64(s: string): (r: Option<int>)
    ensures r.Some? ==> -I64_LIMIT <= r.value < I64_LIMIT
  {
    var negative := s != [] && s[0] == '-';
    var digits := if s != [] && (s[0] == '+' || s[0] == '-') then s[1..] else s;
    if digits == [] || !AllDigits(digits) then None
    else if negative then
      (if DigitsValue(digits) <= I64_LIMIT then Some(0 - DigitsValue(digits) as int) else None)
    else
      (if DigitsValue(digits) < I64_LIMIT then Some(DigitsValue(digits)) else None)
  }

  /** What `format!("{}")` writes, `u64::from_str` reads back. */
  lemma ParseU64OfNatToString(n: nat)
    ensures ParseU64(NatToString(n)) == if n < U64_LIMIT then Some(n) else None
  {
    DigitsValueOfNatToString(n);
  }

  /** What `format!("{}")` writes, `i64::from_str` reads back when it fits. */
  lemma ParseI64OfNatToString(n: nat)
    ensures ParseI64(NatToString(n)) == if n < I64_LIMIT then Some(n) else None
  {
    DigitsValueOfNatToString(n);
  }
}

=== FILE: wrappers.dfy ===
/** Option and Result, the two failure-carrying shapes the model uses. */
module Wrappers {

  datatype Option<+T> = None | Some(value: T) {
    function GetOr(default: T): T {
      match this
      case Some(v) => v
      case None => default
    }
  }

  datatype Result<+T, +E> = Ok(value: T) | Err(error: E)
}
